=== FILE: README.md ===
# research-assistant: a Dafny model of the gap-filling search, the source aggregator and the text helpers

This project models the deterministic core of the research assistant, a
service that reads a paper's research gaps and looks for papers that address
them. Three parts are modelled:

- **`ResearchGapAgent`** (`src/research_agent.py`). It builds search queries
  from the gap text and key concepts, optionally replacing them with a language
  model's lines. It sends the first two queries to arXiv with three results
  each, turns the Atom entries into paper records, and deduplicates them by
  lower-cased title prefix. Ranking is the identity. It then selects the first
  paper the Notion knowledge store does not already hold, and the store lookup
  fails open. The module also models the enrichment of one paper URL: the
  summary truncation, the PDF link, and the default analysis fields.
- **`AcademicSearchAggregator`** (`src/academic_search.py`). It covers the
  ordered list of enabled sources, the normalisation of paper dictionaries
  into one record shape, and the fan-in of the gathered per-source outcomes
  into one `{status, papers}` entry per source.
- **`DocumentAnalyzer`** (`src/document_analyzer.py`). It covers greedy word
  packing into chunks, and keyword-based extraction of six paper sections.

Everything effectful is an oracle parameter: the language model (`LlmReply`,
`Analyst`), the arXiv endpoint (`FeedReply`, a function from query and bound
to a reply), the Notion lookup (`Store`), the abstract-page fetch
(`PageFetch`), and the aggregator's HTTP replies (a function from source,
query and limit to an `HttpReply`). The concurrent
`asyncio.gather(..., return_exceptions=True)` is a sequence of per-task
`Result`s in task order.

Modules, one file each:
- `Common` holds `Option`, `Result`, `Take` (Python's `xs[:n]`), concatenation and subsequences.
- `Text` holds the Python string operations the code relies on: `split()`, `split('\n')`, `join`, `strip`, `lower`, `replace`, `in`/`index`, and decimal rendering.
- `ArxivFeed` covers `search_arxiv`.
- `Deduplication` covers `_deduplicate_papers`.
- `GapAgent` covers query generation, dispatch, the existence check, ranking and selection.
- `Enrichment` covers `fetch_and_analyze_paper`.
- `AcademicSearch` and `DocumentAnalyzer` cover the other two classes.

Behaviour of the code that a reader might not expect, and that the model
keeps:
- `_rank_papers_by_relevance` returns its input unchanged (research_agent.py:182-186), although its docstring at line 183 speaks of ranking with the language model.
- The prompt asks for "3 specific search queries" (research_agent.py:77), but the reply is only filtered: a reply made of blank lines gives an empty query list, and a longer one is cut to its first three non-blank lines (research_agent.py:90-91).
- The enrichment record starts with `key_concepts` `[]`, `methodology` `'Not analyzed'` and `theme` `'General'` (research_agent.py:224-226), and keeps them when no analysis is made.
- An abstract page that answers with a status other than 200 falls through to the external-paper placeholder, returned with `success` true (research_agent.py:198, 263-271).
- With key concepts given and a gap text without words, `research_gaps.split()[0]` (research_agent.py:71) raises `IndexError`, and nothing in `find_papers_for_gaps` catches it.
- Enabling the IEEE source makes `search_all_sources` raise while it builds its tasks (academic_search.py:34-35), because the aggregator defines no `_search_ieee`.

## Model

| member | source | states |
|---|---|---|
| Text.WordsOfJoin | src/research_agent.py:66 | Joining whitespace-free words with single spaces and splitting again gives back the same words, so the gap query carries exactly the chosen words |
| Text.WordsEmptyIffBlank | src/document_analyzer.py:56 | `text.split()` is empty exactly when the text is empty or all whitespace |
| Text.Strip | src/research_agent.py:90-91 | A stripped string has no whitespace at either end, and is empty exactly when the input was all whitespace. It is the input with a run of whitespace removed from each end: a slice of the input at some offset, with only whitespace before and after it |
| Text.SplitOn | src/research_agent.py:90 | `split('\n')` yields at least one part and no part contains the separator; `Text.JoinSplitOn` shows joining the parts restores the string |
| Text.JoinSplitOn | src/research_agent.py:90 | Splitting on a character and joining with it is the identity |
| Text.Lower | src/research_agent.py:175 | Lower-casing keeps the length and leaves no ASCII capital. Each capital becomes its lower-case letter, and every other character is kept |
| Text.LowerIdempotent | src/research_agent.py:175 | Lower-casing an already lower-cased text changes nothing, so a title key is stable |
| Text.LowerEqualIff | src/research_agent.py:175 | Two texts lower-case alike exactly when, position by position, they are equal or differ only in the case of an ASCII letter |
| ArxivFeed.PdfUrl | src/research_agent.py:136 | The PDF link is four characters longer than the id and ends with `.pdf`. It is the id plus `.pdf` when the id contains no `abs`. `ArxivFeed.ArxivPdfUrl` covers ids that do |
| ArxivFeed.PdfOfLink | src/research_agent.py:136 | Replacing every `abs` with `pdf` in a link `<p>a<q>abs/<id>` changes only the `abs/` segment. Here `p` and `q` contain no `a`, `q` does not start with `b`, and the id contains no `abs` |
| ArxivFeed.ArxivPdfUrl | src/research_agent.py:136 | A link `<scheme>://arxiv.org/abs/<id>` gets the PDF link `<scheme>://arxiv.org/pdf/<id>.pdf` when neither the scheme has an `a` nor the id an `abs`. This covers the `http` feed ids and the `https` links passed to the enrichment step (research_agent.py:193) |
| ArxivFeed.AuthorNames | src/research_agent.py:126-130 | A name is in the list exactly when some `<author>` has a `<name>` child with that text. The names follow author order, and there are at most as many names as authors. Each name occurs as many times as authors carry it |
| ArxivFeed.AuthorNamesAllPresent | src/research_agent.py:126-130 | When every author has a `<name>` child, the list is exactly their texts, in author order |
| ArxivFeed.ToPaperFields | src/research_agent.py:132-140 | A record has source `arXiv` and the id as url. Its title is the stripped title with every newline turned into a space, so it has no newline. Its abstract is the stripped summary or `''`. Its date is the first ten characters of `published` or `''` |
| ArxivFeed.Kept | src/research_agent.py:124 | An entry is kept exactly when it has both a title and an id. The kept entries are in feed order, each as many times as in the feed, and they stay readable when the feed is |
| ArxivFeed.ParseEntries | src/research_agent.py:117-142 | The feed yields records exactly when no kept entry has an empty title, id, summary or date element. The records are those of the kept entries in feed order |
| ArxivFeed.SearchArxiv | src/research_agent.py:98-147 | A failed request, a non-200 status, malformed XML or a raising entry all give `[]`. Otherwise the result is the parsed records, each with source `arXiv`, no newline in the title, a date of at most ten characters and a PDF link ending in `.pdf` |
| Deduplication.DeduplicatePapers | src/research_agent.py:169-180 | The seen-set loop computes the first-occurrence deduplication. Its output has pairwise distinct keys and exactly the input's keys |
| Deduplication.DedupKeys | src/research_agent.py:174-178 | Every key of the input appears among the kept papers |
| Deduplication.DedupDistinctKeys | src/research_agent.py:176-178 | No two kept papers share a key |
| Deduplication.DedupSubsequence | src/research_agent.py:174-178 | The kept papers are a subsequence of the input |
| Deduplication.DedupKeepsFirst | src/research_agent.py:174-178 | Every paper that is the first with its key is kept |
| Deduplication.DedupOfDistinct | src/research_agent.py:174-178 | A list with distinct keys is left unchanged |
| Deduplication.DedupIdempotent | src/research_agent.py:169-180 | Deduplicating twice equals deduplicating once |
| Deduplication.CaseVariantsCollapse | src/research_agent.py:175 | Two titles differing only in letter case collapse to the first paper |
| GapAgent.BaselineQueries | src/research_agent.py:65-72 | Generation raises exactly when concepts are given and the gap text has no word. The first query is the gap text's first ten words (all of them when fewer) joined by single spaces. With concepts, a second query is the first concept, a space and the first gap word |
| GapAgent.NonBlank | src/research_agent.py:91 | The kept texts are stripped and non-empty. A text is kept exactly when it is the strip of some non-blank input line, as many times as such lines occur. They come in input order, and no line break appears that the input lacked |
| GapAgent.NonBlankOfStripped | src/research_agent.py:91 | Lines that are already stripped and non-blank all survive unchanged |
| GapAgent.ReplyQueries | src/research_agent.py:90-91 | The queries are the first three, or all if fewer, of the reply's non-blank lines, stripped. Each is non-empty and free of line breaks |
| GapAgent.ReplyOfQueries | src/research_agent.py:77-91 | A reply in the requested shape gives back exactly its queries: up to three stripped, line-free queries, one per line |
| GapAgent.GenerateQueries | src/research_agent.py:61-96 | Without a client, or when the model raises, the baseline is returned unchanged. A model answer replaces it with the reply's queries. Generation fails exactly when the baseline does |
| GapAgent.CandidatesFromFirstTwo | src/research_agent.py:32-35 | Only the first two queries are searched, each with bound 3, and their results are concatenated in query order |
| GapAgent.CandidatesIgnoreLaterQueries | src/research_agent.py:33 | Queries after the second never influence the candidates |
| GapAgent.PaperExists | src/research_agent.py:149-167 | No client gives false and a raising lookup gives false. Otherwise the answer is true exactly when the lookup of the first 30 title characters has a match |
| GapAgent.ExistsDependsOnPrefix | src/research_agent.py:160 | Titles agreeing on their first 30 characters get the same answer |
| GapAgent.SelectNew | src/research_agent.py:49-53 | The selected position is the first whose paper the store does not know, and every earlier paper is known. There is none exactly when every paper is known |
| GapAgent.FindPapersForGaps | src/research_agent.py:24-59 | It fails exactly when query generation raises, and returns the full generated query list. At most one paper is returned, and none exactly when every deduplicated candidate is known. A returned paper is the first unknown candidate, and the summary counts the deduplicated candidates |
| GapAgent.ReportIgnoresClient | src/research_agent.py:40-46 | Ranking is the identity (`_rank_papers_by_relevance`, research_agent.py:182-186). So whether a language-model client is present never changes the selected papers, the summary count or the queries |
| GapAgent.FoundSummaryCount | src/research_agent.py:46 | The number written in the summary reads back as the number of deduplicated candidates |
| GapAgent.FailOpenSelectsFirst | src/research_agent.py:149-167 | With no store, or one whose lookups always raise, the first deduplicated candidate is selected |
| Enrichment.AbstractSummary | src/research_agent.py:223 | The summary is the abstract when at most 500 characters. Otherwise it is its first 500 characters and `...`, at most 503 in all |
| Enrichment.FetchAndAnalyzePaper | src/research_agent.py:188-275 | A non-arXiv link gives the fixed placeholder, and so does a non-200 page. A raising fetch gives a failure. A 200 page gives an analysed record with the link, its PDF link and the abstract's summary. Its title and abstract have their labels removed and are stripped. Its authors are the stripped author link texts, or none |
| Enrichment.ApplyUpdate | src/research_agent.py:253 | The keys the answer carries replace the record's concepts, methodology and theme, the others are kept, and no other field changes |
| Enrichment.ApplyUpdateIdempotent | src/research_agent.py:253 | Applying the same answer twice is applying it once, and an answer without keys changes nothing |
| Enrichment.AnalysisDefaults | src/research_agent.py:217-229 | Without a client, with an empty abstract, or with an unusable answer, `key_concepts`, `methodology` and `theme` keep `[]`, `'Not analyzed'` and `'General'` |
| AcademicSearch.KeepEnabled | src/academic_search.py:14-21 | A source is listed exactly when it is among the candidates and enabled |
| AcademicSearch.EnabledSources | src/academic_search.py:14-21 | A source is listed exactly when its flag is set |
| AcademicSearch.KeepEnabledSubsequence | src/academic_search.py:14-21 | Filtering by flag keeps order and distinctness |
| AcademicSearch.EnabledSourcesOrder | src/academic_search.py:14-21 | The enabled sources are a duplicate-free subsequence of semantic_scholar, arxiv, ieee |
| AcademicSearch.FormatPaper | src/academic_search.py:92-100 | A record has exactly the seven keys and the given source. Title, authors, year, abstract and url are copied or default to `''`, `[]`, `''`, `''`, `''`. `relevance_score` is `citationCount` or `0` |
| AcademicSearch.FormatPapers | src/academic_search.py:88-101 | Same length and order as the input, every record normalised |
| AcademicSearch.SemanticScholarSearch | src/academic_search.py:61-66 | A raised request, a non-200 status and a body that is not a JSON object are errors. For an object body, `data` (default `[]`) that lists objects gives those objects normalised with source semantic_scholar. An empty object or string gives `[]`, and anything else is an error |
| AcademicSearch.AsRecords | src/academic_search.py:64 | Iterating `data` and calling `.get` succeeds exactly for a list of objects, giving their dictionaries, and for an empty object or string, giving nothing |
| AcademicSearch.SemanticScholarRoundTrip | src/academic_search.py:61-64 | A 200 reply whose `data` lists the given papers returns exactly those papers, normalised, in order |
| AcademicSearch.ArxivSearch | src/academic_search.py:78-86 | A 200 reply always gives no papers. Any other status is an error carrying it |
| AcademicSearch.EntryOf | src/academic_search.py:40-44 | An exception becomes status error with no papers, and a result becomes status success with its papers |
| AcademicSearch.Collect | src/academic_search.py:39-44 | The result has one key per source named in the pairs |
| AcademicSearch.CollectLastWins | src/academic_search.py:39-44 | A source's entry comes from the last pair naming it |
| AcademicSearch.CollectResults | src/academic_search.py:39-44 | The keys are the sources paired with an outcome |
| AcademicSearch.CollectResultsPerSource | src/academic_search.py:39-44 | With distinct sources, each source's entry is its own task's outcome |
| AcademicSearch.BuildTasks | src/academic_search.py:30-35 | Building the tasks raises exactly when IEEE is enabled. Otherwise there is one task per enabled source, each at most once, Semantic Scholar before arXiv |
| AcademicSearch.EnabledSourcesValue | src/academic_search.py:14-21 | The enabled list is semantic_scholar, arxiv and ieee, each present exactly when its flag is set, in that order |
| AcademicSearch.TasksFollowEnabledSources | src/academic_search.py:30-39 | The tasks are created in the order of the enabled sources, so `zip` pairs each source with its own task |
| AcademicSearch.SearchAllSources | src/academic_search.py:24-46 | It fails exactly when IEEE is enabled. Otherwise there is one entry per enabled source, and each is the mapped outcome of that source's adapter on its own reply |
| AcademicSearch.FailureIsolation | src/academic_search.py:37-44 | A source's entry depends on its own reply only, so another source failing cannot change it |
| DocumentAnalyzer.ChunkText | src/document_analyzer.py:54-73 | The chunk size defaults to 3000. No chunks exactly for blank text. Re-splitting the chunks gives the text's words in order. Each chunk is its words joined by single spaces, and none is empty. Every chunk but the last reached the size, and no proper prefix of a chunk did |
| DocumentAnalyzer.GatherWord | src/document_analyzer.py:61-68 | Adding a word grows the running size by its length plus one. The group closes exactly when that size reaches the chunk size, keeping the loop's state consistent |
| DocumentAnalyzer.CloseLast | src/document_analyzer.py:70-71 | The words left after the last close form one more, possibly under-size, chunk |
| DocumentAnalyzer.GroupingUnique | src/document_analyzer.py:61-71 | The description of the chunking admits only one grouping of the words, so it fixes the result |
| DocumentAnalyzer.ChunkingUnique | src/document_analyzer.py:54-73 | At most one list of chunks meets that description for given words and chunk size, so it pins down what `chunk_text` returns |
| DocumentAnalyzer.SectionStart | src/document_analyzer.py:99-106 | A section starts at the first index of the first keyword, in list order, that occurs in the lowered text. There is no start exactly when none occurs |
| DocumentAnalyzer.ExcerptIsPrefix | src/document_analyzer.py:105 | The 1000-character window never matters: the excerpt is the text from the start up to 500 characters or the end, whichever comes first, then `...` |
| DocumentAnalyzer.SectionTextShape | src/document_analyzer.py:99-106 | A section is `''` exactly when none of its keywords occurs. Otherwise it ends with `...` and is 4 to 503 characters long |
| DocumentAnalyzer.SectionStartsWithKeyword | src/document_analyzer.py:101-105 | A found section begins, ignoring case, with one of its keywords |
| DocumentAnalyzer.IntroductionStartsAtWord | src/document_analyzer.py:92 | The numbered introduction headings never decide the start, which is always where `introduction` first occurs |
| DocumentAnalyzer.ConclusionIgnoresPlural | src/document_analyzer.py:95 | `conclusions` never decides where the conclusion starts |
| DocumentAnalyzer.ExtractSections | src/document_analyzer.py:75-108 | Exactly the six section keys. A section is empty when none of its keywords occurs in the lower-cased text. Otherwise it is the original text from the first occurrence of the first keyword (in list order) that occurs, up to 500 characters or the end, then `...` |

## Left out

- HTTP, XML and HTML handling (aiohttp sessions, `ET.fromstring`, BeautifulSoup) is not modelled. The parsed feed, the parsed abstract page and the decoded JSON bodies are inputs.
- The asyncio concurrency is not modelled. The gathered outcomes are a sequence in task order.
- The language-model calls and the extraction of a JSON object from their text are not modelled. They are oracles returning the reply text or the parsed update.
- `add_paper_to_notion`, `notify_paper_added`, the Notion and Discord wrappers, the Flask routes, PDF text and metadata extraction, the scheduler, the proxy login, project setup and the connection script are outside the modelled core. They are I/O over external services.
- Text.Lower: lower-cases ASCII letters only, because Unicode case mapping is a large table and can change a string's length, which the section extraction's index arithmetic assumes it does not.
- Only the three documented keys of the model's JSON answer are modelled, because `analysis.update` with arbitrary keys could overwrite any field.
- JSON numbers are integers, because floating-point values play no role in the modelled decisions.
- The arXiv server honouring `max_results` is not modelled. The reply to each query is whatever the oracle returns.
- API-key headers and the configured base URLs are not modelled. They affect only the request, which is an oracle.
- Missing configuration keys (`KeyError` on `config['databases'][...]`) are not modelled. The configuration is three flags.
- Enabling IEEE is modelled as the failure of the whole call, as the code behaves, not as an isolated failure of that source.
- The logger calls are not modelled. They do not affect results.

=== FILE: academic_search.dfy ===
/**
 `AcademicSearchAggregator`: the list of enabled sources, the per-source
 adapters (their HTTP replies given as data), the normalisation of paper
 dictionaries into one record shape, and the fan-in of the gathered outcomes
 into one `{status, papers}` entry per source. The concurrent gather with
 `return_exceptions=True` is modelled as the sequence of per-task outcomes, in
 task order.
 */
module AcademicSearch {
  import opened Common

  /** A JSON value as the HTTP client decodes it (numbers restricted to integers). */
  datatype Json =
    | JNull
    | JBool(b: bool)
    | JNum(n: int)
    | JStr(s: string)
    | JArr(items: seq<Json>)
    | JObj(fields: map<string, Json>)

  /** A paper dictionary, before or after normalisation. */
  type Record = map<string, Json>

  datatype Source = SemanticScholar | Arxiv | Ieee
  {
    /** The key of the source in the configuration and in the results. */
    function Name(): string
    {
      match this
      case SemanticScholar => "semantic_scholar"
      case Arxiv => "arxiv"
      case Ieee => "ieee"
    }
  }

  /** The `enabled` flags of `config['databases']`. */
  datatype Config = Config(semanticScholar: bool, arxiv: bool, ieee: bool)

  function Enabled(config: Config, s: Source): bool
  {
    match s
    case SemanticScholar => config.semanticScholar
    case Arxiv => config.arxiv
    case Ieee => config.ieee
  }

  /** The sources in the order they are checked. */
  const AllSources: seq<Source> := [SemanticScholar, Arxiv, Ieee]

  /** The sources of `sources` whose flag is set, in order. */
  function KeepEnabled(sources: seq<Source>, config: Config): (r: seq<Source>)
    ensures forall s :: s in r <==> s in sources && Enabled(config, s)
  {
    if |sources| == 0 then []
    else
      var n := |sources| - 1;
      assert sources == sources[..n] + [sources[n]];
      KeepEnabled(sources[..n], config) + (if Enabled(config, sources[n]) then [sources[n]] else [])
  }

  /** `_initialize_sources`: the enabled sources, in the fixed order. */
  function EnabledSources(config: Config): (r: seq<Source>)
    ensures forall s :: s in r <==> Enabled(config, s)
  {
    KeepEnabled(AllSources, config)
  }

  /** Keeping the enabled sources is taking a subsequence, and keeps distinct sources distinct. */
  lemma KeepEnabledSubsequence(sources: seq<Source>, config: Config)
    ensures IsSubsequence(KeepEnabled(sources, config), sources)
    ensures Distinct(sources) ==> Distinct(KeepEnabled(sources, config))
  {
    KeepEnabledOrder(sources, config);
    if Distinct(sources) {
      KeepEnabledDistinct(sources, config);
    }
  }

  lemma {:induction false} KeepEnabledOrder(sources: seq<Source>, config: Config)
    ensures IsSubsequence(KeepEnabled(sources, config), sources)
    decreases |sources|
  {
    if |sources| > 0 {
      var n := |sources| - 1;
      var init := sources[..n];
      KeepEnabledOrder(init, config);
      var r := KeepEnabled(sources, config);
      if Enabled(config, sources[n]) {
        assert r[..|r| - 1] == KeepEnabled(init, config);
      } else {
        assert r == KeepEnabled(init, config);
      }
    }
  }

  lemma {:induction false} KeepEnabledDistinct(sources: seq<Source>, config: Config)
    requires Distinct(sources)
    ensures Distinct(KeepEnabled(sources, config))
    decreases |sources|
  {
    if |sources| > 0 {
      var n := |sources| - 1;
      var init := sources[..n];
      assert Distinct(init) by {
        assert forall i :: 0 <= i < n ==> init[i] == sources[i];
      }
      KeepEnabledDistinct(init, config);
      var kept := KeepEnabled(init, config);
      if Enabled(config, sources[n]) {
        assert sources[n] !in init;
        assert sources[n] !in kept;
        var r := kept + [sources[n]];
        forall i, j | 0 <= i < j < |r| ensures r[i] != r[j] {
          if j == |kept| {
            assert r[i] == kept[i];
          } else {
            assert r[i] == kept[i] && r[j] == kept[j];
          }
        }
      }
    }
  }

  /** The enabled sources are `semantic_scholar`, `arxiv`, `ieee` with the
      disabled ones left out, each at most once. */
  lemma EnabledSourcesOrder(config: Config)
    ensures IsSubsequence(EnabledSources(config), AllSources)
    ensures Distinct(EnabledSources(config))
  {
    KeepEnabledSubsequence(AllSources, config);
  }

  /** Python's `d.get(key, default)`. */
  function Get(d: Record, key: string, default: Json): Json
  {
    if key in d then d[key] else default
  }

  /** The defaults of the fields copied under their own name. */
  const CopiedDefaults: map<string, Json> :=
    map["title" := JStr(""), "authors" := JArr([]), "year" := JStr(""), "abstract" := JStr(""), "url" := JStr("")]

  const FormattedKeys: set<string> :=
    {"title", "authors", "year", "abstract", "url", "source", "relevance_score"}

  /** One normalised record. */
  function FormatPaper(paper: Record, source: string): (r: Record)
    ensures r.Keys == FormattedKeys
    ensures r["source"] == JStr(source)
    ensures forall k :: k in CopiedDefaults ==> r[k] == (if k in paper then paper[k] else CopiedDefaults[k])
    ensures "citationCount" in paper ==> r["relevance_score"] == paper["citationCount"]
    ensures "citationCount" !in paper ==> r["relevance_score"] == JNum(0)
  {
    map[
      "title" := Get(paper, "title", JStr("")),
      "authors" := Get(paper, "authors", JArr([])),
      "year" := Get(paper, "year", JStr("")),
      "abstract" := Get(paper, "abstract", JStr("")),
      "url" := Get(paper, "url", JStr("")),
      "source" := JStr(source),
      "relevance_score" := Get(paper, "citationCount", JNum(0))]
  }

  /** `_format_papers`: every paper normalised, order and count preserved. */
  function FormatPapers(papers: seq<Record>, source: string): (r: seq<Record>)
    ensures |r| == |papers|
    ensures forall k :: 0 <= k < |r| ==> r[k] == FormatPaper(papers[k], source)
    ensures forall k :: 0 <= k < |r| ==> r[k].Keys == FormattedKeys && r[k]["source"] == JStr(source)
  {
    seq(|papers|, k requires 0 <= k < |papers| => FormatPaper(papers[k], source))
  }

  /** The ways a search task can raise. */
  datatype SourceError =
    | RequestFailed
    | HttpStatus(code: int)
    | MalformedPayload

  /** What one HTTP request yielded: it raised, or a status with the JSON body
      (`None` when the body cannot be decoded as JSON). */
  datatype HttpReply = RequestRaised | HttpResponse(status: int, body: Option<Json>)

  /** Every item is a JSON object. */
  predicate ObjectList(items: seq<Json>)
  {
    forall k :: 0 <= k < |items| ==> items[k].JObj?
  }

  /** The dictionaries of a list of JSON objects. */
  function FieldsOf(items: seq<Json>): (r: seq<Record>)
    requires ObjectList(items)
    ensures |r| == |items|
    ensures forall k :: 0 <= k < |items| ==> items[k] == JObj(r[k])
  {
    seq(|items|, k requires 0 <= k < |items| && items[k].JObj? => items[k].fields)
  }

  /** A value that iterates over nothing without raising although it is not a
      list: the empty object (no keys) and the empty string (no characters). */
  predicate IteratesToNothing(data: Json)
  {
    data == JObj(map[]) || data == JStr("")
  }

  /** Iterating over a decoded JSON value and calling `.get` on each element:
      a list of objects gives their dictionaries; an empty object or an empty
      string iterate over nothing; anything else raises (a non-iterable value,
      a key or character that has no `.get`, a list element that is not an object). */
  function AsRecords(data: Json): (r: Option<seq<Record>>)
    ensures r.Some? <==> (data.JArr? && ObjectList(data.items)) || IteratesToNothing(data)
    ensures data.JArr? && ObjectList(data.items) ==> r == Some(FieldsOf(data.items))
    ensures IteratesToNothing(data) ==> r == Some([])
  {
    match data
    case JArr(items) => if ObjectList(items) then Some(FieldsOf(items)) else None
    case JObj(fields) => if fields == map[] then Some([]) else None
    case JStr(s) => if |s| == 0 then Some([]) else None
    case _ => None
  }

  /** The papers of a 200 reply's body: the records under `data` (default `[]`)
      of a JSON object; `None` for any other body, as `.get` or the loop raises. */
  function PayloadRecords(body: Option<Json>): Option<seq<Record>>
  {
    if body.Some? && body.value.JObj? then AsRecords(Get(body.value.fields, "data", JArr([]))) else None
  }

  /** `_search_semantic_scholar` once its request has been answered. */
  function SemanticScholarSearch(reply: HttpReply): (r: Result<seq<Record>, SourceError>)
    ensures reply.RequestRaised? ==> r == Err(RequestFailed)
    ensures reply.HttpResponse? && reply.status != 200 ==> r == Err(HttpStatus(reply.status))
    ensures reply.HttpResponse? && reply.status == 200 && !(reply.body.Some? && reply.body.value.JObj?) ==>
              r == Err(MalformedPayload)
    ensures reply.HttpResponse? && reply.status == 200 && reply.body.Some? && reply.body.value.JObj? ==>
              var data := Get(reply.body.value.fields, "data", JArr([]));
              && (data.JArr? && ObjectList(data.items) ==> r == Ok(FormatPapers(FieldsOf(data.items), "semantic_scholar")))
              && (IteratesToNothing(data) ==> r == Ok([]))
              && (!(data.JArr? && ObjectList(data.items)) && !IteratesToNothing(data) ==> r == Err(MalformedPayload))
    ensures r.Ok? ==> forall k :: 0 <= k < |r.value| ==>
              r.value[k].Keys == FormattedKeys && r.value[k]["source"] == JStr("semantic_scholar")
  {
    match reply
    case RequestRaised => Err(RequestFailed)
    case HttpResponse(status, body) =>
      if status != 200 then Err(HttpStatus(status))
      else
        match PayloadRecords(body)
        case None => Err(MalformedPayload)
        case Some(papers) => Ok(FormatPapers(papers, SemanticScholar.Name()))
  }

  /** The JSON objects of the given dictionaries. */
  function Objects(papers: seq<Record>): (items: seq<Json>)
    ensures ObjectList(items) && FieldsOf(items) == papers
  {
    var items := seq(|papers|, k requires 0 <= k < |papers| => JObj(papers[k]));
    assert forall k :: 0 <= k < |items| ==> items[k].JObj?;
    items
  }

  /** A 200 reply whose `data` lists the given papers returns them, normalised,
      in the order listed. */
  lemma SemanticScholarRoundTrip(papers: seq<Record>)
    ensures SemanticScholarSearch(HttpResponse(200, Some(JObj(map["data" := JArr(Objects(papers))]))))
            == Ok(FormatPapers(papers, "semantic_scholar"))
  {
  }

  /** `_search_arxiv` of the aggregator: its parser is a stub, so a 200 reply
      always yields no papers. */
  function ArxivSearch(reply: HttpReply): (r: Result<seq<Record>, SourceError>)
    ensures reply.HttpResponse? && reply.status == 200 ==> r == Ok([])
    ensures reply.HttpResponse? && reply.status != 200 ==> r == Err(HttpStatus(reply.status))
    ensures reply.RequestRaised? ==> r.Err?
  {
    match reply
    case RequestRaised => Err(RequestFailed)
    case HttpResponse(status, _) =>
      if status == 200 then Ok(FormatPapers([], Arxiv.Name())) else Err(HttpStatus(status))
  }

  /** The adapter of a source that has one (there is no IEEE adapter). */
  function Adapter(s: Source, reply: HttpReply): Result<seq<Record>, SourceError>
    requires s != Ieee
  {
    if s == SemanticScholar then SemanticScholarSearch(reply) else ArxivSearch(reply)
  }

  /** A source's entry in the results. */
  datatype Status = Success | Error
  datatype SourceEntry = SourceEntry(status: Status, papers: seq<Record>)

  /** A task's outcome as an entry: an exception becomes an error with no papers. */
  function EntryOf(outcome: Result<seq<Record>, SourceError>): (e: SourceEntry)
    ensures e.status == Error <==> outcome.Err?
    ensures outcome.Err? ==> e.papers == []
    ensures outcome.Ok? ==> e.papers == outcome.value
  {
    match outcome
    case Ok(papers) => SourceEntry(Success, papers)
    case Err(_) => SourceEntry(Error, [])
  }

  /** Python's `zip`: pairs up to the shorter length. */
  function Zip<A, B>(xs: seq<A>, ys: seq<B>): (r: seq<(A, B)>)
    ensures |r| == if |xs| < |ys| then |xs| else |ys|
    ensures forall i :: 0 <= i < |r| ==> r[i] == (xs[i], ys[i])
  {
    var n := if |xs| < |ys| then |xs| else |ys|;
    seq(n, i requires 0 <= i < n => (xs[i], ys[i]))
  }

  /** The sources named by the pairs. */
  function Named(pairs: seq<(Source, Result<seq<Record>, SourceError>)>): set<Source>
  {
    set i | 0 <= i < |pairs| :: pairs[i].0
  }

  /** No later pair names the source of pair `i`. */
  predicate LastFor(pairs: seq<(Source, Result<seq<Record>, SourceError>)>, i: nat)
    requires i < |pairs|
  {
    forall j :: i < j < |pairs| ==> pairs[j].0 != pairs[i].0
  }

  /** The fan-in loop: each pair writes its source's entry, a later pair for
      the same source overwriting an earlier one. */
  function Collect(pairs: seq<(Source, Result<seq<Record>, SourceError>)>): (results: map<Source, SourceEntry>)
    ensures results.Keys == Named(pairs)
  {
    if |pairs| == 0 then map[]
    else
      var n := |pairs| - 1;
      var init := pairs[..n];
      assert Named(pairs) == Named(init) + {pairs[n].0} by {
        assert forall i :: 0 <= i < n ==> init[i] == pairs[i];
      }
      Collect(init)[pairs[n].0 := EntryOf(pairs[n].1)]
  }

  /** The entry of a source is written by the last pair naming it. */
  lemma {:induction false} CollectLastWins(pairs: seq<(Source, Result<seq<Record>, SourceError>)>, i: nat)
    requires i < |pairs| && LastFor(pairs, i)
    ensures Collect(pairs)[pairs[i].0] == EntryOf(pairs[i].1)
    decreases |pairs|
  {
    var n := |pairs| - 1;
    var init := pairs[..n];
    CollectSnoc(pairs);
    if i < n {
      assert init[i] == pairs[i];
      assert LastFor(init, i) by {
        forall j | i < j < n ensures init[j].0 != init[i].0 {
          assert init[j] == pairs[j];
        }
      }
      CollectLastWins(init, i);
      assert pairs[n].0 != pairs[i].0;
    }
  }

  /** The last pair's write comes after all the others. */
  lemma CollectSnoc(pairs: seq<(Source, Result<seq<Record>, SourceError>)>)
    requires |pairs| > 0
    ensures Collect(pairs) == Collect(pairs[..|pairs| - 1])[pairs[|pairs| - 1].0 := EntryOf(pairs[|pairs| - 1].1)]
  {
  }

  /** The results of `search_all_sources` for the sources and the outcomes of their tasks, in order. */
  function CollectResults(sources: seq<Source>, outcomes: seq<Result<seq<Record>, SourceError>>): (results: map<Source, SourceEntry>)
    ensures results.Keys == Named(Zip(sources, outcomes))
  {
    Collect(Zip(sources, outcomes))
  }

  /** With distinct sources, each source's entry is its own task's outcome. */
  lemma CollectResultsPerSource(sources: seq<Source>, outcomes: seq<Result<seq<Record>, SourceError>>, i: nat)
    requires Distinct(sources) && i < |sources| && i < |outcomes|
    ensures sources[i] in CollectResults(sources, outcomes)
    ensures CollectResults(sources, outcomes)[sources[i]] == EntryOf(outcomes[i])
  {
    var pairs := Zip(sources, outcomes);
    assert pairs[i].0 == sources[i];
    assert LastFor(pairs, i) by {
      forall j | i < j < |pairs| ensures pairs[j].0 != pairs[i].0 {
        assert pairs[j].0 == sources[j];
      }
    }
    CollectLastWins(pairs, i);
  }

  /** Why the whole search fails: the IEEE source is enabled but the aggregator
      has no `_search_ieee`, so building its task raises before the gather. */
  datatype ConfigError = MissingIeeeAdapter

  /** The sources whose tasks `search_all_sources` creates, one membership
      test each in the fixed order semantic_scholar, arxiv, ieee; creating
      the IEEE task raises. */
  function BuildTasks(sources: seq<Source>): (r: Result<seq<Source>, ConfigError>)
    ensures r.Err? <==> Ieee in sources
    ensures r.Ok? ==> forall s :: s in r.value <==> s in sources
    ensures r.Ok? ==> Distinct(r.value) && IsSubsequence(r.value, [SemanticScholar, Arxiv])
  {
    if Ieee in sources then Err(MissingIeeeAdapter)
    else
      var tasks := (if SemanticScholar in sources then [SemanticScholar] else [])
                   + (if Arxiv in sources then [Arxiv] else []);
      assert forall s :: s in tasks <==> s in sources by {
        forall s ensures s in tasks <==> s in sources {
          if s == Ieee {
          } else if s == SemanticScholar {
          } else {
            assert s == Arxiv;
          }
        }
      }
      TasksInOrder(SemanticScholar in sources, Arxiv in sources);
      Ok(tasks)
  }

  /** The task list for each pair of membership tests is in source order, without repeats. */
  lemma TasksInOrder(scholar: bool, arxiv: bool)
    ensures var tasks := (if scholar then [SemanticScholar] else []) + (if arxiv then [Arxiv] else []);
            Distinct(tasks) && IsSubsequence(tasks, [SemanticScholar, Arxiv])
  {
    var all := [SemanticScholar, Arxiv];
    assert all[..1] == [SemanticScholar] && all[..1][..0] == [];
    assert [SemanticScholar, Arxiv][..1] == [SemanticScholar];
  }

  /** The enabled sources, written out by configuration. */
  lemma EnabledSourcesValue(config: Config)
    ensures EnabledSources(config) ==
            (if config.semanticScholar then [SemanticScholar] else [])
            + (if config.arxiv then [Arxiv] else [])
            + (if config.ieee then [Ieee] else [])
  {
    var two, one: seq<Source> := [SemanticScholar, Arxiv], [SemanticScholar];
    assert AllSources[..2] == two && two[..1] == one && one[..0] == [];
    assert KeepEnabled(one, config) == [] + (if config.semanticScholar then [SemanticScholar] else []);
    assert KeepEnabled(two, config) == KeepEnabled(one, config) + (if config.arxiv then [Arxiv] else []);
    assert KeepEnabled(AllSources, config) == KeepEnabled(two, config) + (if config.ieee then [Ieee] else []);
  }

  /** The tasks are created in the order of the enabled sources, so `zip`
      pairs each source with its own task. */
  lemma TasksFollowEnabledSources(config: Config)
    requires !config.ieee
    ensures BuildTasks(EnabledSources(config)) == Ok(EnabledSources(config))
  {
    var sources := EnabledSources(config);
    EnabledSourcesValue(config);
    assert (SemanticScholar in sources) == config.semanticScholar;
    assert (Arxiv in sources) == config.arxiv;
    assert Ieee !in sources;
    assert sources == (if config.semanticScholar then [SemanticScholar] else []) + (if config.arxiv then [Arxiv] else []);
  }

  /** `search_all_sources`, with the replies of the sources given as an oracle. */
  function SearchAllSources(
    config: Config, query: string, maxResults: int,
    replies: (Source, string, int) -> HttpReply): (r: Result<map<Source, SourceEntry>, ConfigError>)
    ensures r.Err? <==> config.ieee
    ensures r.Ok? ==> forall s :: s in r.value <==> Enabled(config, s)
    ensures r.Ok? ==> forall s :: s in r.value ==>
              s != Ieee && r.value[s] == EntryOf(Adapter(s, replies(s, query, maxResults)))
  {
    var sources := EnabledSources(config);
    match BuildTasks(sources)
    case Err(e) => Err(e)
    case Ok(tasks) =>
      var outcomes := seq(|tasks|, i requires 0 <= i < |tasks| =>
                            Adapter(tasks[i], replies(tasks[i], query, maxResults)));
      TasksFollowEnabledSources(config);
      assert tasks == sources;
      EnabledSourcesOrder(config);
      var results := CollectResults(sources, outcomes);
      assert forall s :: s in results ==> s in sources;
      assert forall i :: 0 <= i < |sources| ==>
               sources[i] in results && results[sources[i]] == EntryOf(Adapter(sources[i], replies(sources[i], query, maxResults)))
      by {
        forall i | 0 <= i < |sources|
          ensures sources[i] in results
          ensures results[sources[i]] == EntryOf(Adapter(sources[i], replies(sources[i], query, maxResults)))
        {
          CollectResultsPerSource(sources, outcomes, i);
        }
      }
      Ok(results)
  }

  /** One source's failure is isolated: its entry depends on its own reply
      only, whatever the other sources answer. */
  lemma FailureIsolation(
    config: Config, query: string, maxResults: int,
    replies1: (Source, string, int) -> HttpReply, replies2: (Source, string, int) -> HttpReply, s: Source)
    requires !config.ieee && Enabled(config, s)
    requires replies1(s, query, maxResults) == replies2(s, query, maxResults)
    ensures SearchAllSources(config, query, maxResults, replies1).Ok?
    ensures SearchAllSources(config, query, maxResults, replies2).Ok?
    ensures SearchAllSources(config, query, maxResults, replies1).value[s]
            == SearchAllSources(config, query, maxResults, replies2).value[s]
  {
  }
}

=== FILE: arxiv_feed.dfy ===
/**
 The arXiv search used by the gap-filling agent: an Atom feed, already parsed
 into entries, is turned into paper records. HTTP and XML parsing are not
 modelled; the reply is given as a `FeedReply`.
 */
module ArxivFeed {
  import opened Common
  import opened Text

  /** A paper record as the arXiv search builds it. `authors` keeps the `None`
      that an empty `<name/>` element contributes. */
  datatype Paper = Paper(
    title: string,
    abstractText: string,
    url: string,
    pdfUrl: string,
    authors: seq<Option<string>>,
    date: string,
    source: string)

  /** A child element of an Atom entry: missing, or present with its text
      (`None` when the element is empty). */
  datatype Element = Absent | Present(text: Option<string>)

  datatype AtomAuthor = AtomAuthor(name: Element)

  datatype AtomEntry = AtomEntry(
    title: Element,
    summary: Element,
    id: Element,
    published: Element,
    authors: seq<AtomAuthor>)

  /** What the HTTP exchange yielded: a failure before any status was seen, or
      a status with the feed (`None` when the body is not well-formed XML). */
  datatype FeedReply = RequestFailed | Reply(status: int, feed: Option<seq<AtomEntry>>)

  const ArxivSource := "arXiv"
  const DateLength := 10

  /** An entry becomes a record only when it has both a title and an id. */
  predicate Included(e: AtomEntry)
  {
    e.title.Present? && e.id.Present?
  }

  /** Building the record of an included entry reads the text of its title,
      id, summary and published date; an empty element there raises. */
  predicate Readable(e: AtomEntry)
  {
    && (e.title.Present? ==> e.title.text.Some?)
    && (e.id.Present? ==> e.id.text.Some?)
    && (e.summary.Present? ==> e.summary.text.Some?)
    && (e.published.Present? ==> e.published.text.Some?)
  }

  /** The PDF link derived from an abstract link: every `abs` becomes `pdf`, then `.pdf` is appended. */
  function PdfUrl(url: string): (r: string)
    ensures |r| == |url| + 4
    ensures EndsWith(r, ".pdf")
    ensures !Contains(url, "abs") ==> r == url + ".pdf"
  {
    var r := Replace(url, "abs", "pdf") + ".pdf";
    assert r[|r| - 4..] == ".pdf";
    if !Contains(url, "abs") then ReplaceAbsent(url, "abs", "pdf"); r else r
  }

  /** No `abs` starts inside a text without an `a`, so it is copied unchanged. */
  lemma PdfSkipPlain(p: string, s: string)
    requires 'a' !in p
    ensures Replace(p + s, "abs", "pdf") == p + Replace(s, "abs", "pdf")
  {
    forall i | 0 <= i < |p| ensures !OccursAt(p + s, "abs", i) {
      assert (p + s)[i] == p[i];
    }
    ReplaceSkip(p, s, "abs", "pdf");
  }

  /** An `a` not followed by `b` is copied unchanged. */
  lemma PdfSkipA(s: string)
    requires |s| > 0 && s[0] != 'b'
    ensures Replace("a" + s, "abs", "pdf") == "a" + Replace(s, "abs", "pdf")
  {
    var t := "a" + s;
    assert t[1..] == s;
    if |t| >= 3 {
      var w := t[..3];
      assert w[1] == s[0] && "abs"[1] == 'b';
      assert w != "abs";
    }
  }

  /** `abs/<id>` becomes `pdf/<id>` when the id has no `abs` of its own. */
  lemma PdfOfAbsPath(id: string)
    requires !Contains(id, "abs")
    ensures Replace("abs/" + id, "abs", "pdf") == "pdf/" + id
  {
    assert "abs/" + id == "abs" + ("/" + id);
    ReplaceAtStart("abs", "/" + id, "pdf");
    PdfSkipPlain("/", id);
    ReplaceAbsent(id, "abs", "pdf");
  }

  /** In a link `<p>a<q>abs/<id>` where `p` and `q` have no `a`, `q` does not
      start with `b` and the id has no `abs`, only the `abs/` becomes `pdf/`. */
  lemma PdfOfLink(p: string, q: string, id: string)
    requires 'a' !in p && 'a' !in q && |q| > 0 && q[0] != 'b'
    requires !Contains(id, "abs")
    ensures Replace(p + ("a" + (q + ("abs/" + id))), "abs", "pdf") == p + ("a" + (q + ("pdf/" + id)))
  {
    PdfOfAbsPath(id);
    PdfSkipPlain(q, "abs/" + id);
    PdfSkipA(q + ("abs/" + id));
    PdfSkipPlain(p, "a" + (q + ("abs/" + id)));
  }

  /** The links arXiv's feed gives as entry ids, `http://arxiv.org/abs/<id>`,
      and the `https` abstract links a user may submit, become
      `<scheme>://arxiv.org/pdf/<id>.pdf`. */
  lemma ArxivPdfUrl(scheme: string, id: string)
    requires 'a' !in scheme
    requires !Contains(id, "abs")
    ensures PdfUrl(scheme + "://arxiv.org/abs/" + id) == scheme + "://arxiv.org/pdf/" + id + ".pdf"
  {
    var p := scheme + "://";
    SchemeHasNoA(scheme);
    ArxivLinkParts(scheme, id);
    PdfOfLink(p, "rxiv.org/", id);
  }

  lemma SchemeHasNoA(scheme: string)
    requires 'a' !in scheme
    ensures 'a' !in scheme + "://"
  {
    var p := scheme + "://";
    assert forall k :: 0 <= k < |p| ==> if k < |scheme| then p[k] == scheme[k] else p[k] in "://";
  }

  /** The abstract and PDF links split around the `a` of `arxiv`. */
  lemma ArxivLinkParts(scheme: string, id: string)
    ensures scheme + "://arxiv.org/abs/" + id == (scheme + "://") + ("a" + ("rxiv.org/" + ("abs/" + id)))
    ensures scheme + "://arxiv.org/pdf/" + id == (scheme + "://") + ("a" + ("rxiv.org/" + ("pdf/" + id)))
  {
    assert "://arxiv.org/abs/" == "://" + "a" + "rxiv.org/" + "abs/";
    assert "://arxiv.org/pdf/" == "://" + "a" + "rxiv.org/" + "pdf/";
  }

  /** The `<name>` element of each author, position by position. */
  function NameElements(authors: seq<AtomAuthor>): seq<Element>
  {
    seq(|authors|, k requires 0 <= k < |authors| => authors[k].name)
  }

  /** The names, each as the `<name>` element it was read from. */
  function AsPresent(names: seq<Option<string>>): seq<Element>
  {
    seq(|names|, i requires 0 <= i < |names| => Present(names[i]))
  }

  /** What one author adds to the names: its `<name>` text, when it has a `<name>`. */
  function NameOf(a: AtomAuthor): seq<Option<string>>
  {
    if a.name.Present? then [a.name.text] else []
  }

  /** `names` lists the texts of the `<name>` elements present among the
      authors: each such text and nothing else, in author order, once per
      author that has it. */
  ghost predicate NamesOf(names: seq<Option<string>>, authors: seq<AtomAuthor>)
  {
    && |names| <= |authors|
    && (forall t :: t in names <==> exists k :: 0 <= k < |authors| && authors[k].name == Present(t))
    && IsSubsequence(AsPresent(names), NameElements(authors))
    && multiset(AsPresent(names)) == multiset(NameElements(authors))[Absent := 0]
  }

  /** The names of the `<author>` children that have a `<name>` child, in order:
      exactly the texts of present `<name>` elements, in author order, one per author. */
  function AuthorNames(authors: seq<AtomAuthor>): (names: seq<Option<string>>)
    ensures |names| <= |authors|
    ensures forall t :: t in names <==> exists k :: 0 <= k < |authors| && authors[k].name == Present(t)
    ensures IsSubsequence(AsPresent(names), NameElements(authors))
    ensures multiset(AsPresent(names)) == multiset(NameElements(authors))[Absent := 0]
    decreases |authors|
  {
    if |authors| == 0 then []
    else
      var n := |authors| - 1;
      var init := AuthorNames(authors[..n]);
      NamesStep(authors, init);
      init + NameOf(authors[n])
  }

  /** One more author keeps the description of the names. */
  lemma NamesStep(authors: seq<AtomAuthor>, init: seq<Option<string>>)
    requires |authors| > 0 && NamesOf(init, authors[..|authors| - 1])
    ensures NamesOf(init + NameOf(authors[|authors| - 1]), authors)
  {
    var n := |authors| - 1;
    var prev, a := authors[..n], authors[n];
    assert authors == prev + [a];
    NameMembersStep(prev, a, init);
    NameOrderStep(prev, a, init);
    AuthorCountStep(prev, a, init);
  }

  lemma NameMembersStep(prev: seq<AtomAuthor>, a: AtomAuthor, init: seq<Option<string>>)
    requires forall t :: t in init <==> exists k :: 0 <= k < |prev| && prev[k].name == Present(t)
    ensures var authors, names := prev + [a], init + NameOf(a);
            forall t :: t in names <==> exists k :: 0 <= k < |authors| && authors[k].name == Present(t)
  {
    var authors, names := prev + [a], init + NameOf(a);
    forall t ensures t in names <==> exists k :: 0 <= k < |authors| && authors[k].name == Present(t) {
      if t in init {
        var k :| 0 <= k < |prev| && prev[k].name == Present(t);
        assert authors[k] == prev[k];
      } else if t in names {
        assert authors[|prev|] == a;
      }
      if exists k :: 0 <= k < |authors| && authors[k].name == Present(t) {
        var k :| 0 <= k < |authors| && authors[k].name == Present(t);
        if k < |prev| {
          assert prev[k] == authors[k];
        }
      }
    }
  }

  lemma NameOrderStep(prev: seq<AtomAuthor>, a: AtomAuthor, init: seq<Option<string>>)
    requires IsSubsequence(AsPresent(init), NameElements(prev))
    ensures IsSubsequence(AsPresent(init + NameOf(a)), NameElements(prev + [a]))
  {
    var all := NameElements(prev + [a]);
    assert all[..|prev|] == NameElements(prev);
    assert all[|prev|] == a.name;
    if a.name.Present? {
      var names := init + NameOf(a);
      assert AsPresent(names)[..|init|] == AsPresent(init);
    } else {
      assert init + NameOf(a) == init;
      assert AsPresent(init) == [] || AsPresent(init)[|init| - 1] != all[|prev|];
    }
  }

  /** One more author adds its name to the count exactly when it has a `<name>`. */
  lemma AuthorCountStep(prev: seq<AtomAuthor>, a: AtomAuthor, init: seq<Option<string>>)
    requires multiset(AsPresent(init)) == multiset(NameElements(prev))[Absent := 0]
    ensures multiset(AsPresent(init + NameOf(a))) == multiset(NameElements(prev + [a]))[Absent := 0]
  {
    var before := NameElements(prev);
    assert NameElements(prev + [a]) == before + [a.name];
    assert multiset(NameElements(prev + [a])) == multiset(before) + multiset{a.name};
    if a.name.Present? {
      assert AsPresent(init + NameOf(a)) == AsPresent(init) + [a.name];
      assert multiset(AsPresent(init + NameOf(a))) == multiset(AsPresent(init)) + multiset{a.name};
    } else {
      assert init + NameOf(a) == init;
    }
  }

  /** When every author has a `<name>` child, the names are exactly theirs, in author order. */
  lemma {:induction false} AuthorNamesAllPresent(authors: seq<AtomAuthor>, names: seq<Option<string>>)
    requires |authors| == |names|
    requires forall k :: 0 <= k < |authors| ==> authors[k].name == Present(names[k])
    ensures AuthorNames(authors) == names
    decreases |authors|
  {
    if |authors| > 0 {
      var n := |authors| - 1;
      var prev, before := authors[..n], names[..n];
      assert forall k :: 0 <= k < n ==> prev[k] == authors[k] && before[k] == names[k];
      AuthorNamesAllPresent(prev, before);
      AuthorNamesSnoc(authors);
      SplitLast(names);
    }
  }

  /** The names of a list of authors with a last one. */
  lemma AuthorNamesSnoc(authors: seq<AtomAuthor>)
    requires |authors| > 0
    ensures AuthorNames(authors) == AuthorNames(authors[..|authors| - 1]) + NameOf(authors[|authors| - 1])
  {
  }

  /** The record of one included, readable entry. */
  function ToPaper(e: AtomEntry): Paper
    requires Included(e) && Readable(e)
  {
    Paper(
      title := Replace(Strip(e.title.text.value), "\n", " "),
      abstractText := if e.summary.Present? then Strip(e.summary.text.value) else "",
      url := e.id.text.value,
      pdfUrl := PdfUrl(e.id.text.value),
      authors := AuthorNames(e.authors),
      date := if e.published.Present? then Take(e.published.text.value, DateLength) else "",
      source := ArxivSource)
  }

  /** What each field of a record says about its entry. */
  lemma ToPaperFields(e: AtomEntry)
    requires Included(e) && Readable(e)
    ensures ToPaper(e).source == ArxivSource
    ensures ToPaper(e).url == e.id.text.value
    ensures ToPaper(e).pdfUrl == PdfUrl(e.id.text.value) && EndsWith(ToPaper(e).pdfUrl, ".pdf")
    ensures '\n' !in ToPaper(e).title
    ensures |ToPaper(e).title| == |Strip(e.title.text.value)|
    ensures forall k :: 0 <= k < |ToPaper(e).title| ==>
              ToPaper(e).title[k] == (if Strip(e.title.text.value)[k] == '\n' then ' ' else Strip(e.title.text.value)[k])
    ensures e.summary.Absent? ==> ToPaper(e).abstractText == ""
    ensures e.summary.Present? ==> ToPaper(e).abstractText == Strip(e.summary.text.value)
    ensures e.published.Absent? ==> ToPaper(e).date == ""
    ensures e.published.Present? ==>
              |ToPaper(e).date| == (if |e.published.text.value| <= DateLength then |e.published.text.value| else DateLength)
              && ToPaper(e).date == e.published.text.value[..|ToPaper(e).date|]
    ensures |ToPaper(e).date| <= DateLength
  {
    var stripped := Strip(e.title.text.value);
    ReplaceChar(stripped, '\n', ' ');
    var title := ToPaper(e).title;
    assert forall k :: 0 <= k < |title| ==> title[k] != '\n';
  }

  /** Every entry that would become a record can be read without raising. */
  predicate AllReadable(entries: seq<AtomEntry>)
  {
    forall k :: 0 <= k < |entries| && Included(entries[k]) ==> Readable(entries[k])
  }

  /** Every entry of the list becomes a record without raising. */
  predicate Buildable(es: seq<AtomEntry>)
  {
    forall k :: 0 <= k < |es| ==> Included(es[k]) && Readable(es[k])
  }

  /** Both predicates split over the first entry and the rest. */
  lemma EntriesCons(entries: seq<AtomEntry>)
    requires |entries| > 0
    ensures AllReadable(entries) <==>
            AllReadable(entries[1..]) && (Included(entries[0]) ==> Readable(entries[0]))
    ensures Buildable(entries) <==>
            Buildable(entries[1..]) && Included(entries[0]) && Readable(entries[0])
  {
    assert forall k :: 1 <= k < |entries| ==> entries[1..][k - 1] == entries[k];
  }

  /** The entries that have a title and an id, in feed order: each included
      entry as often as the feed has it, and nothing else. */
  function Kept(entries: seq<AtomEntry>): (r: seq<AtomEntry>)
    ensures |r| <= |entries|
    ensures forall k :: 0 <= k < |r| ==> Included(r[k])
    ensures IsSubsequence(r, entries)
    ensures forall e :: multiset(r)[e] == if Included(e) then multiset(entries)[e] else 0
    ensures AllReadable(entries) ==> Buildable(r)
  {
    if |entries| == 0 then []
    else
      var rest := Kept(entries[1..]);
      EntriesCons(entries);
      KeptStep(entries, rest);
      if Included(entries[0]) then
        EntriesCons([entries[0]] + rest);
        assert ([entries[0]] + rest)[1..] == rest;
        [entries[0]] + rest
      else rest
  }

  /** Keeping or skipping the first entry keeps the order and the counts. */
  lemma KeptStep(entries: seq<AtomEntry>, rest: seq<AtomEntry>)
    requires |entries| > 0
    requires IsSubsequence(rest, entries[1..])
    requires forall e :: multiset(rest)[e] == if Included(e) then multiset(entries[1..])[e] else 0
    ensures var r := if Included(entries[0]) then [entries[0]] + rest else rest;
            && IsSubsequence(r, entries)
            && forall e :: multiset(r)[e] == if Included(e) then multiset(entries)[e] else 0
  {
    var first := entries[0];
    assert entries == [first] + entries[1..];
    SubsequencePrepend(first, rest, entries[1..]);
    assert multiset(entries) == multiset{first} + multiset(entries[1..]);
    assert multiset([first] + rest) == multiset{first} + multiset(rest);
  }

  /** The record of each entry, in order. */
  function Records(es: seq<AtomEntry>): (ps: seq<Paper>)
    requires Buildable(es)
    ensures |ps| == |es|
    ensures forall k :: 0 <= k < |es| ==> ps[k] == ToPaper(es[k])
  {
    if |es| == 0 then []
    else
      EntriesCons(es);
      var rest := Records(es[1..]);
      assert forall k :: 1 <= k < |es| ==> es[1..][k - 1] == es[k];
      [ToPaper(es[0])] + rest
  }

  /** The records of a feed, or `None` when building one of them raises. */
  function ParseEntries(entries: seq<AtomEntry>): (r: Option<seq<Paper>>)
    ensures r.Some? <==> AllReadable(entries)
    ensures r.Some? ==> r.value == Records(Kept(entries))
  {
    if |entries| == 0 then Some([])
    else
      var rest := ParseEntries(entries[1..]);
      EntriesCons(entries);
      if !Included(entries[0]) then rest
      else if !Readable(entries[0]) then None
      else if rest.None? then None
      else
        var kept := Kept(entries);
        assert kept == [entries[0]] + Kept(entries[1..]);
        assert kept[1..] == Kept(entries[1..]);
        Some([ToPaper(entries[0])] + rest.value)
  }

  /** `search_arxiv`: every failure (transport, status, XML, a raising entry) yields no papers. */
  function SearchArxiv(reply: FeedReply): (papers: seq<Paper>)
    ensures !(reply.Reply? && reply.status == 200 && reply.feed.Some?) ==> papers == []
    ensures reply.Reply? && reply.status == 200 && reply.feed.Some? ==>
              papers == ParseEntries(reply.feed.value).GetOr([])
    ensures forall k :: 0 <= k < |papers| ==>
              papers[k].source == ArxivSource && '\n' !in papers[k].title
              && |papers[k].date| <= DateLength && EndsWith(papers[k].pdfUrl, ".pdf")
  {
    var papers := SearchResult(reply);
    forall k | 0 <= k < |papers|
      ensures papers[k].source == ArxivSource && '\n' !in papers[k].title
      ensures |papers[k].date| <= DateLength && EndsWith(papers[k].pdfUrl, ".pdf")
    {
      var feed := reply.feed.value;
      ToPaperFields(Kept(feed)[k]);
    }
    papers
  }

  function SearchResult(reply: FeedReply): seq<Paper>
  {
    match reply
    case RequestFailed => []
    case Reply(status, feed) =>
      if status == 200 && feed.Some? then
        match ParseEntries(feed.value)
        case None => []
        case Some(ps) => ps
      else []
  }
}

=== FILE: common.dfy ===
/**
 Small shared vocabulary: optional values, results carrying an error, and the
 sequence operations the rest of the model needs (Python's `xs[:n]`,
 flattening a list of lists, and the subsequence relation).
 */
module Common {

  /** A value that may be missing (Python's `None`). */
  datatype Option<+T> = None | Some(value: T)
  {
    /** The value, or `default` when missing. */
    function GetOr(default: T): T
    {
      if Some? then value else default
    }
  }

  /** Either a value or the error that replaced it (an exception in the source). */
  datatype Result<+T, +E> = Ok(value: T) | Err(error: E)

  /** Python's `xs[:n]` for a non-negative bound: the first `n` elements, or all of them. */
  function Take<T>(xs: seq<T>, n: nat): (r: seq<T>)
    ensures |r| == if |xs| <= n then |xs| else n
    ensures r == xs[..|r|]
  {
    if |xs| <= n then xs else xs[..n]
  }

  /** Concatenation of a list of lists, in order (defined from the back, as loops build it). */
  function Concat<T>(xss: seq<seq<T>>): seq<T>
  {
    if |xss| == 0 then [] else Concat(xss[..|xss| - 1]) + xss[|xss| - 1]
  }

  /** `xs` can be obtained from `ys` by deleting elements, keeping the order of the rest. */
  predicate IsSubsequence<T(==)>(xs: seq<T>, ys: seq<T>)
    decreases |ys|
  {
    if |xs| == 0 then true
    else if |ys| == 0 then false
    else
      (xs[|xs| - 1] == ys[|ys| - 1] && IsSubsequence(xs[..|xs| - 1], ys[..|ys| - 1]))
      || IsSubsequence(xs, ys[..|ys| - 1])
  }

  /** No element occurs twice. */
  predicate Distinct<T(==)>(xs: seq<T>)
  {
    forall i, j :: 0 <= i < j < |xs| ==> xs[i] != xs[j]
  }

  /** A subsequence stays one when the same element is put in front of both,
      or in front of the longer list alone. */
  lemma {:induction false} SubsequencePrepend<T>(x: T, xs: seq<T>, ys: seq<T>)
    requires IsSubsequence(xs, ys)
    ensures IsSubsequence([x] + xs, [x] + ys)
    ensures IsSubsequence(xs, [x] + ys)
    decreases |ys|
  {
    var xys := [x] + ys;
    if |ys| == 0 {
      assert xys[..0] == [];
      assert ([x] + xs)[..|xs|] == [];
    } else {
      var init := ys[..|ys| - 1];
      assert xys[..|xys| - 1] == [x] + init;
      if |xs| > 0 && xs[|xs| - 1] == ys[|ys| - 1] && IsSubsequence(xs[..|xs| - 1], init) {
        SubsequencePrepend(x, xs[..|xs| - 1], init);
        assert ([x] + xs)[..|xs|] == [x] + xs[..|xs| - 1];
      } else {
        SubsequencePrepend(x, xs, init);
      }
    }
  }

  /** A non-empty list is its front followed by its last element. */
  lemma SplitLast<T>(xs: seq<T>)
    requires |xs| > 0
    ensures xs == xs[..|xs| - 1] + [xs[|xs| - 1]]
  {
  }
}

=== FILE: deduplication.dfy ===
/**
 Collapsing the candidates that several queries returned: two papers are the
 same when their lower-cased titles agree on the first 50 characters, and the
 first one seen is kept.
 */
module Deduplication {
  import opened Common
  import opened Text
  import opened ArxivFeed

  const KeyLength := 50

  /** The identity of a paper for deduplication. */
  function TitleKey(p: Paper): string
  {
    Take(Lower(p.title), KeyLength)
  }

  /** The set of keys occurring in a list of papers. */
  function Keys(ps: seq<Paper>): set<string>
  {
    set p | p in ps :: TitleKey(p)
  }

  /** No two papers of the list share a key. */
  predicate DistinctKeys(ps: seq<Paper>)
  {
    forall i, j :: 0 <= i < j < |ps| ==> TitleKey(ps[i]) != TitleKey(ps[j])
  }

  /** Position `i` holds the first paper with its key. */
  predicate IsFirstOfKey(ps: seq<Paper>, i: nat)
    requires i < |ps|
  {
    forall j :: 0 <= j < i ==> TitleKey(ps[j]) != TitleKey(ps[i])
  }

  /** The papers at the positions that are first for their key, in input order. */
  function Dedup(ps: seq<Paper>): seq<Paper>
  {
    if |ps| == 0 then []
    else
      var init := ps[..|ps| - 1];
      Dedup(init) + (if IsFirstOfKey(ps, |ps| - 1) then [ps[|ps| - 1]] else [])
  }

  /** `_deduplicate_papers`: one pass with the set of keys seen so far. */
  method DeduplicatePapers(papers: seq<Paper>) returns (unique: seq<Paper>)
    ensures unique == Dedup(papers)
    ensures DistinctKeys(unique)
    ensures Keys(unique) == Keys(papers)
  {
    var seen: set<string> := {};
    unique := [];
    for i := 0 to |papers|
      invariant unique == Dedup(papers[..i])
      invariant seen == Keys(papers[..i])
    {
      var key := TitleKey(papers[i]);
      DedupStep(papers, i);
      if key !in seen {
        seen := seen + {key};
        unique := unique + [papers[i]];
      }
    }
    assert papers[..|papers|] == papers;
    DedupDistinctKeys(papers);
    DedupKeys(papers);
  }

  /** One step of the loop: the next paper is kept exactly when its key has not been seen. */
  lemma DedupStep(papers: seq<Paper>, i: nat)
    requires i < |papers|
    ensures var key := TitleKey(papers[i]);
            && Dedup(papers[..i + 1]) == Dedup(papers[..i]) + (if key in Keys(papers[..i]) then [] else [papers[i]])
            && Keys(papers[..i + 1]) == Keys(papers[..i]) + {key}
  {
    var key := TitleKey(papers[i]);
    var prefix := papers[..i + 1];
    assert prefix[..i] == papers[..i];
    assert prefix[i] == papers[i];
    assert IsFirstOfKey(prefix, i) <==> key !in Keys(papers[..i]) by {
      if key in Keys(papers[..i]) {
        var p :| p in papers[..i] && TitleKey(p) == key;
        var j :| 0 <= j < i && papers[j] == p;
        assert TitleKey(prefix[j]) == TitleKey(prefix[i]);
      } else {
        forall j | 0 <= j < i ensures TitleKey(prefix[j]) != key {
          assert prefix[j] in papers[..i];
        }
      }
    }
    assert prefix == papers[..i] + [papers[i]];
  }

  /** Deduplication loses no key. */
  lemma {:induction false} DedupKeys(ps: seq<Paper>)
    ensures Keys(Dedup(ps)) == Keys(ps)
    decreases |ps|
  {
    if |ps| > 0 {
      var n := |ps| - 1;
      var init := ps[..n];
      DedupKeys(init);
      assert ps == init + [ps[n]];
      KeysSnoc(init, ps[n]);
      if IsFirstOfKey(ps, n) {
        KeysSnoc(Dedup(init), ps[n]);
      } else {
        var j :| 0 <= j < n && TitleKey(ps[j]) == TitleKey(ps[n]);
        assert ps[j] in init;
      }
    }
  }

  /** Appending a paper adds its key. */
  lemma KeysSnoc(ps: seq<Paper>, p: Paper)
    ensures Keys(ps + [p]) == Keys(ps) + {TitleKey(p)}
  {
    assert forall q :: q in ps + [p] <==> q in ps || q == p;
  }

  /** No two kept papers share a key. */
  lemma {:induction false} DedupDistinctKeys(ps: seq<Paper>)
    ensures DistinctKeys(Dedup(ps))
    decreases |ps|
  {
    if |ps| > 0 {
      var n := |ps| - 1;
      var init := ps[..n];
      DedupDistinctKeys(init);
      if IsFirstOfKey(ps, n) {
        DedupKeys(init);
        var d := Dedup(init);
        var key := TitleKey(ps[n]);
        assert key !in Keys(d);
        forall i | 0 <= i < |d| ensures TitleKey(d[i]) != key {
          assert d[i] in d;
        }
      }
    }
  }

  /** The kept papers appear in the input, in the same order. */
  lemma {:induction false} DedupSubsequence(ps: seq<Paper>)
    ensures IsSubsequence(Dedup(ps), ps)
    decreases |ps|
  {
    if |ps| > 0 {
      var n := |ps| - 1;
      var init := ps[..n];
      DedupSubsequence(init);
      var d := Dedup(ps);
      if IsFirstOfKey(ps, n) {
        assert d[..|d| - 1] == Dedup(init);
      } else {
        assert d == Dedup(init);
        SubsequenceDropLast(d, ps);
      }
    }
  }

  /** If `xs` is a subsequence of `ys` without its last element, it is one of `ys`. */
  lemma SubsequenceDropLast<T>(xs: seq<T>, ys: seq<T>)
    requires |ys| > 0 && IsSubsequence(xs, ys[..|ys| - 1])
    ensures IsSubsequence(xs, ys)
  {
  }

  /** Every paper that is first for its key is kept. */
  lemma {:induction false} DedupKeepsFirst(ps: seq<Paper>, i: nat)
    requires i < |ps| && IsFirstOfKey(ps, i)
    ensures ps[i] in Dedup(ps)
    decreases |ps|
  {
    var n := |ps| - 1;
    var init := ps[..n];
    if i < n {
      assert IsFirstOfKey(init, i) by {
        forall j | 0 <= j < i ensures TitleKey(init[j]) != TitleKey(init[i]) {
          assert init[j] == ps[j];
        }
      }
      DedupKeepsFirst(init, i);
    }
  }

  /** A list whose keys are already distinct is its own deduplication. */
  lemma {:induction false} DedupOfDistinct(ps: seq<Paper>)
    requires DistinctKeys(ps)
    ensures Dedup(ps) == ps
    decreases |ps|
  {
    if |ps| > 0 {
      var n := |ps| - 1;
      var init := ps[..n];
      DedupOfDistinct(init);
      assert IsFirstOfKey(ps, n);
      assert ps == init + [ps[n]];
    }
  }

  /** Deduplicating twice is deduplicating once. */
  lemma DedupIdempotent(ps: seq<Paper>)
    ensures Dedup(Dedup(ps)) == Dedup(ps)
  {
    DedupDistinctKeys(ps);
    DedupOfDistinct(Dedup(ps));
  }

  /** Titles that differ only in ASCII letter case share a key and collapse to the first. */
  lemma CaseVariantsCollapse(a: Paper, b: Paper)
    requires |a.title| == |b.title|
    requires forall k :: 0 <= k < |a.title| ==> LowerChar(a.title[k]) == LowerChar(b.title[k])
    ensures Dedup([a, b]) == [a]
  {
    assert Lower(a.title) == Lower(b.title);
    assert TitleKey(a) == TitleKey(b);
    assert [a, b][..1] == [a];
    assert [a, b][0] == a && [a, b][1] == b;
    assert !IsFirstOfKey([a, b], 1);
    assert Dedup([a]) == [a] by {
      assert [a][..0] == [];
      assert IsFirstOfKey([a], 0);
    }
  }
}

=== FILE: document_analyzer.dfy ===
/**
 The text utilities of `DocumentAnalyzer`: splitting a document into chunks of
 whole words of roughly a given size, and locating the common paper sections
 by keyword. PDF text extraction is not modelled; both operations start from
 the extracted text.
 */
module DocumentAnalyzer {
  import opened Common
  import opened Text

  /** The chunk size used when the caller gives none. */
  const DefaultChunkSize := 3000

  /** The size a list of words contributes to a chunk: each word and one separator. */
  function Size(ws: seq<string>): nat
  {
    if |ws| == 0 then 0 else Size(ws[..|ws| - 1]) + |ws[|ws| - 1]| + 1
  }

  /** Every non-empty proper prefix of the group stayed below the chunk size. */
  predicate PrefixesSmall(g: seq<string>, chunkSize: int)
  {
    forall k :: 0 < k < |g| ==> Size(g[..k]) < chunkSize
  }

  /** Every non-empty prefix of the words being gathered, itself included, is below the chunk size. */
  predicate StillOpen(current: seq<string>, chunkSize: int)
  {
    forall k :: 0 < k <= |current| ==> Size(current[..k]) < chunkSize
  }

  /** A grouping of `words` as the chunking loop closes groups: the groups
      concatenate to the words, none is empty, a group is closed as soon as
      its size reaches the chunk size (so every group but the last reached
      it, and none reached it earlier). */
  predicate ValidGrouping(groups: seq<seq<string>>, words: seq<string>, chunkSize: int)
  {
    && Concat(groups) == words
    && (forall j :: 0 <= j < |groups| ==> |groups[j]| > 0 && PrefixesSmall(groups[j], chunkSize))
    && (forall j :: 0 <= j < |groups| - 1 ==> Size(groups[j]) >= chunkSize)
  }

  /** The words of each chunk. */
  function WordsOfEach(chunks: seq<string>): (r: seq<seq<string>>)
    ensures |r| == |chunks|
    ensures forall j :: 0 <= j < |chunks| ==> r[j] == Words(chunks[j])
  {
    seq(|chunks|, j requires 0 <= j < |chunks| => Words(chunks[j]))
  }

  /** `chunks` is the chunking of `words`: the words of the chunks form a
      grouping as the loop closes groups, and each chunk is its words joined
      by single spaces. */
  predicate ChunkingOf(chunks: seq<string>, words: seq<string>, chunkSize: int)
  {
    && ValidGrouping(WordsOfEach(chunks), words, chunkSize)
    && (forall j :: 0 <= j < |chunks| ==> chunks[j] == Join(" ", Words(chunks[j])))
  }

  /** Appending one list to a concatenation. */
  lemma ConcatSnoc<T>(xss: seq<seq<T>>, xs: seq<T>)
    ensures Concat(xss + [xs]) == Concat(xss) + xs
  {
    assert (xss + [xs])[..|xss|] == xss;
  }

  /** Concatenating non-empty lists gives the empty list only when there are none. */
  lemma ConcatEmpty<T>(xss: seq<seq<T>>)
    requires forall j :: 0 <= j < |xss| ==> |xss[j]| > 0
    ensures Concat(xss) == [] <==> xss == []
  {
    if |xss| > 0 {
      assert |Concat(xss)| >= |xss[|xss| - 1]|;
    }
  }

  /** Adding one word to a list adds its length and a separator. */
  lemma SizeSnoc(ws: seq<string>, w: string)
    ensures Size(ws + [w]) == Size(ws) + |w| + 1
  {
    assert (ws + [w])[..|ws|] == ws;
  }

  /** Adding a word to an open group: the proper prefixes stay small, and the
      group stays open while its size is below the chunk size. */
  lemma AddWord(current: seq<string>, word: string, chunkSize: int)
    requires StillOpen(current, chunkSize)
    ensures PrefixesSmall(current + [word], chunkSize)
    ensures Size(current + [word]) < chunkSize ==> StillOpen(current + [word], chunkSize)
  {
    var grown := current + [word];
    assert forall k :: 0 < k <= |current| ==> grown[..k] == current[..k];
    assert grown[..|grown|] == grown;
  }

  /** The groups closed by the loop. */
  predicate ClosedGroups(groups: seq<seq<string>>, chunkSize: int)
  {
    forall j :: 0 <= j < |groups| ==>
      |groups[j]| > 0 && PrefixesSmall(groups[j], chunkSize) && Size(groups[j]) >= chunkSize && AllWords(groups[j])
  }

  /** Each chunk is its group's words joined by spaces. */
  predicate JoinedGroups(chunks: seq<string>, groups: seq<seq<string>>)
  {
    |chunks| == |groups| && forall j :: 0 <= j < |groups| ==> chunks[j] == Join(" ", groups[j])
  }

  /** The words of a chunk are its group. */
  lemma WordsOfJoinedGroups(chunks: seq<string>, groups: seq<seq<string>>)
    requires JoinedGroups(chunks, groups)
    requires forall j :: 0 <= j < |groups| ==> AllWords(groups[j])
    ensures WordsOfEach(chunks) == groups
  {
    forall j | 0 <= j < |chunks|
      ensures Words(chunks[j]) == groups[j]
    {
      WordsOfJoin(groups[j]);
    }
  }

  /** The state of the chunking loop after the words `done`: closed groups
      with their chunks, and the words gathered since the last one. */
  predicate Gathering(chunks: seq<string>, groups: seq<seq<string>>, current: seq<string>, done: seq<string>, chunkSize: int)
  {
    && JoinedGroups(chunks, groups)
    && Concat(groups) + current == done
    && ClosedGroups(groups, chunkSize)
    && StillOpen(current, chunkSize)
    && AllWords(current)
  }

  /** One iteration of the loop: the word joins the open group, which is
      closed when its size reaches the chunk size. */
  lemma GatherWord(chunks: seq<string>, groups: seq<seq<string>>, current: seq<string>, done: seq<string>,
                   word: string, chunkSize: int)
    requires Gathering(chunks, groups, current, done, chunkSize) && IsWord(word)
    ensures Size(current + [word]) == Size(current) + |word| + 1
    ensures Size(current + [word]) >= chunkSize ==>
              Gathering(chunks + [Join(" ", current + [word])], groups + [current + [word]], [], done + [word], chunkSize)
    ensures Size(current + [word]) < chunkSize ==>
              Gathering(chunks, groups, current + [word], done + [word], chunkSize)
  {
    SizeSnoc(current, word);
    AddWord(current, word, chunkSize);
    var grown := current + [word];
    assert AllWords(grown) by {
      forall k | 0 <= k < |grown| ensures IsWord(grown[k]) {
        if k < |current| {
          assert grown[k] == current[k];
        }
      }
    }
    assert Concat(groups) + grown == done + [word];
    if Size(grown) >= chunkSize {
      CloseGroup(chunks, groups, grown, chunkSize);
      ConcatSnoc(groups, grown);
    }
  }

  /** Closing a full group adds it, and its chunk, to the closed ones. */
  lemma CloseGroup(chunks: seq<string>, groups: seq<seq<string>>, g: seq<string>, chunkSize: int)
    requires JoinedGroups(chunks, groups) && ClosedGroups(groups, chunkSize)
    requires |g| > 0 && PrefixesSmall(g, chunkSize) && Size(g) >= chunkSize && AllWords(g)
    ensures JoinedGroups(chunks + [Join(" ", g)], groups + [g])
    ensures ClosedGroups(groups + [g], chunkSize)
  {
    var chunks', groups' := chunks + [Join(" ", g)], groups + [g];
    forall j | 0 <= j < |groups'|
      ensures chunks'[j] == Join(" ", groups'[j])
      ensures |groups'[j]| > 0 && PrefixesSmall(groups'[j], chunkSize)
      ensures Size(groups'[j]) >= chunkSize && AllWords(groups'[j])
    {
      if j < |groups| {
        assert chunks'[j] == chunks[j] && groups'[j] == groups[j];
      }
    }
  }

  /** The chunks of a finished run, with the groups they were joined from. */
  predicate Chunked(chunks: seq<string>, groups: seq<seq<string>>, words: seq<string>, chunkSize: int)
  {
    && JoinedGroups(chunks, groups)
    && ValidGrouping(groups, words, chunkSize)
    && (forall j :: 0 <= j < |groups| ==> AllWords(groups[j]))
  }

  /** When the last word closed a group, the closed groups are the grouping. */
  lemma NothingOpen(chunks: seq<string>, groups: seq<seq<string>>, words: seq<string>, chunkSize: int)
    requires Gathering(chunks, groups, [], words, chunkSize)
    ensures Chunked(chunks, groups, words, chunkSize)
  {
    assert Concat(groups) == words;
  }

  /** After the last word, the open group becomes the last chunk. */
  lemma CloseLast(chunks: seq<string>, groups: seq<seq<string>>, current: seq<string>, words: seq<string>,
                  chunkSize: int)
    requires Gathering(chunks, groups, current, words, chunkSize) && |current| > 0
    ensures Chunked(chunks + [Join(" ", current)], groups + [current], words, chunkSize)
  {
    var chunks', groups' := chunks + [Join(" ", current)], groups + [current];
    ConcatSnoc(groups, current);
    assert PrefixesSmall(current, chunkSize);
    assert JoinedGroups(chunks', groups') by {
      forall j | 0 <= j < |groups'| ensures chunks'[j] == Join(" ", groups'[j]) {
        if j < |groups| {
          assert chunks'[j] == chunks[j] && groups'[j] == groups[j];
        }
      }
    }
    forall j | 0 <= j < |groups'|
      ensures |groups'[j]| > 0 && PrefixesSmall(groups'[j], chunkSize) && AllWords(groups'[j])
      ensures j < |groups'| - 1 ==> Size(groups'[j]) >= chunkSize
    {
      if j < |groups| {
        assert groups'[j] == groups[j];
      }
    }
  }

  /** The words of each chunk are its group, and there are no chunks only when there are no words. */
  lemma FinishGathering(chunks: seq<string>, groups: seq<seq<string>>, words: seq<string>, chunkSize: int)
    requires Chunked(chunks, groups, words, chunkSize)
    ensures ChunkingOf(chunks, words, chunkSize)
    ensures chunks == [] <==> words == []
  {
    WordsOfJoinedGroups(chunks, groups);
    ConcatEmpty(groups);
  }

  /** Concatenation unfolded from the front. */
  lemma {:induction false} ConcatFront<T>(xss: seq<seq<T>>)
    requires |xss| > 0
    ensures Concat(xss) == xss[0] + Concat(xss[1..])
    decreases |xss|
  {
    var n := |xss| - 1;
    if n == 0 {
      assert xss[..0] == [];
      assert xss[1..] == [];
    } else {
      var init := xss[..n];
      var tail := xss[1..];
      ConcatFront(init);
      assert init[1..] == tail[..n - 1];
      calc {
        Concat(xss);
        Concat(init) + xss[n];
        (xss[0] + Concat(init[1..])) + xss[n];
        xss[0] + (Concat(tail[..n - 1]) + tail[n - 1]);
        xss[0] + Concat(tail);
      }
    }
  }

  /** Dropping the first group of a grouping leaves a grouping of the remaining words. */
  lemma DropFirstGroup(groups: seq<seq<string>>, words: seq<string>, chunkSize: int)
    requires ValidGrouping(groups, words, chunkSize) && |groups| > 0
    ensures |groups[0]| <= |words| && words[..|groups[0]|] == groups[0]
    ensures ValidGrouping(groups[1..], words[|groups[0]|..], chunkSize)
  {
    ConcatFront(groups);
    var rest := groups[1..];
    forall j | 0 <= j < |rest|
      ensures |rest[j]| > 0 && PrefixesSmall(rest[j], chunkSize)
      ensures j < |rest| - 1 ==> Size(rest[j]) >= chunkSize
    {
      assert rest[j] == groups[j + 1];
    }
  }

  /** The first group is the shortest non-empty prefix of the words whose size
      reaches the chunk size, or all the words when none does. */
  predicate FirstGroupLength(words: seq<string>, chunkSize: int, n: nat)
  {
    && 0 < n <= |words|
    && (forall k :: 0 < k < n ==> Size(words[..k]) < chunkSize)
    && (n == |words| || Size(words[..n]) >= chunkSize)
  }

  /** The first group of any grouping has that length. */
  lemma FirstGroupShape(groups: seq<seq<string>>, words: seq<string>, chunkSize: int)
    requires ValidGrouping(groups, words, chunkSize) && |groups| > 0
    ensures FirstGroupLength(words, chunkSize, |groups[0]|)
  {
    DropFirstGroup(groups, words, chunkSize);
    var a := groups[0];
    assert forall k :: 0 < k < |a| ==> words[..k] == a[..k];
    assert words[..|a|] == a;
    if |groups| == 1 {
      ConcatFront(groups);
      assert groups[1..] == [];
    }
  }

  /** Only one length meets the description of the first group. */
  lemma FirstGroupLengthUnique(words: seq<string>, chunkSize: int, n1: nat, n2: nat)
    requires FirstGroupLength(words, chunkSize, n1) && FirstGroupLength(words, chunkSize, n2)
    ensures n1 == n2
  {
  }

  /** The chunking is determined: words and chunk size admit one grouping only. */
  lemma {:induction false} GroupingUnique(g1: seq<seq<string>>, g2: seq<seq<string>>, words: seq<string>, chunkSize: int)
    requires ValidGrouping(g1, words, chunkSize) && ValidGrouping(g2, words, chunkSize)
    ensures g1 == g2
    decreases |g1|
  {
    if |g1| == 0 || |g2| == 0 {
      ConcatEmpty(g1);
      ConcatEmpty(g2);
    } else {
      FirstGroupShape(g1, words, chunkSize);
      FirstGroupShape(g2, words, chunkSize);
      FirstGroupLengthUnique(words, chunkSize, |g1[0]|, |g2[0]|);
      DropFirstGroup(g1, words, chunkSize);
      DropFirstGroup(g2, words, chunkSize);
      GroupingUnique(g1[1..], g2[1..], words[|g1[0]|..], chunkSize);
      assert g1 == [g1[0]] + g1[1..];
      assert g2 == [g2[0]] + g2[1..];
    }
  }

  /** `chunk_text`: words are gathered until the running size (word lengths
      plus one per word) reaches the chunk size; the remainder forms a last
      chunk. Each chunk is its words joined by single spaces. */
  method ChunkText(text: string, chunkSize: int := DefaultChunkSize) returns (chunks: seq<string>)
    ensures chunks == [] <==> forall k :: 0 <= k < |text| ==> IsSpace(text[k])
    ensures ChunkingOf(chunks, Words(text), chunkSize)
  {
    var words := Words(text);
    chunks := [];
    var current: seq<string> := [];
    var currentSize := 0;
    ghost var groups: seq<seq<string>> := [];
    for i := 0 to |words|
      invariant Gathering(chunks, groups, current, words[..i], chunkSize)
      invariant currentSize == Size(current)
    {
      var word := words[i];
      assert IsWord(word);
      GatherWord(chunks, groups, current, words[..i], word, chunkSize);
      assert words[..i + 1] == words[..i] + [word];
      var grown := current + [word];
      currentSize := currentSize + |word| + 1;
      if currentSize >= chunkSize {
        chunks := chunks + [Join(" ", grown)];
        groups := groups + [grown];
        current := [];
        currentSize := 0;
      } else {
        current := grown;
      }
    }
    assert words[..|words|] == words;
    EndOfWords(chunks, groups, current, words, chunkSize);
    if |current| > 0 {
      chunks := chunks + [Join(" ", current)];
    }
    WordsEmptyIffBlank(text);
  }

  /** After the last word, the open group (if any) becomes the last chunk, and
      the chunks describe the words. */
  lemma EndOfWords(chunks: seq<string>, groups: seq<seq<string>>, current: seq<string>, words: seq<string>,
                   chunkSize: int)
    requires Gathering(chunks, groups, current, words, chunkSize)
    ensures var final := if |current| > 0 then chunks + [Join(" ", current)] else chunks;
            ChunkingOf(final, words, chunkSize) && (final == [] <==> words == [])
  {
    if |current| > 0 {
      CloseLast(chunks, groups, current, words, chunkSize);
      FinishGathering(chunks + [Join(" ", current)], groups + [current], words, chunkSize);
    } else {
      NothingOpen(chunks, groups, words, chunkSize);
      FinishGathering(chunks, groups, words, chunkSize);
    }
  }

  /** Only one list of chunks is the chunking of given words, so the
      description fixes what `chunk_text` returns. */
  lemma ChunkingUnique(c1: seq<string>, c2: seq<string>, words: seq<string>, chunkSize: int)
    requires ChunkingOf(c1, words, chunkSize) && ChunkingOf(c2, words, chunkSize)
    ensures c1 == c2
  {
    GroupingUnique(WordsOfEach(c1), WordsOfEach(c2), words, chunkSize);
    assert |c1| == |c2|;
    forall j | 0 <= j < |c1| ensures c1[j] == c2[j] {
      assert Words(c1[j]) == WordsOfEach(c1)[j] == WordsOfEach(c2)[j] == Words(c2[j]);
    }
  }

  /** The sections looked for, in the order they are filled in. */
  datatype Section = Abstract | Introduction | Methodology | Results | Conclusion | References
  {
    /** The key of the section in the result dictionary. */
    function Name(): string
    {
      match this
      case Abstract => "abstract"
      case Introduction => "introduction"
      case Methodology => "methodology"
      case Results => "results"
      case Conclusion => "conclusion"
      case References => "references"
    }

    /** The lower-case headings that mark the section, tried in order. */
    function Keywords(): seq<string>
    {
      match this
      case Abstract => ["abstract"]
      case Introduction => ["introduction", "1. introduction", "1 introduction"]
      case Methodology => ["methodology", "methods", "method"]
      case Results => ["results", "findings"]
      case Conclusion => ["conclusion", "conclusions", "discussion"]
      case References => ["references", "bibliography", "works cited"]
    }
  }

  const AllSections: set<Section> := {Abstract, Introduction, Methodology, Results, Conclusion, References}

  const ExcerptWindow := 1000
  const ExcerptLength := 500
  const Ellipsis := "..."

  /** None of the keywords occurs in the text. */
  predicate NoneOccurs(lowered: string, keywords: seq<string>)
  {
    forall j :: 0 <= j < |keywords| ==> !Contains(lowered, keywords[j])
  }

  /** Where the section starts: the first occurrence of the first keyword (in
      list order) that occurs at all. */
  function SectionStart(lowered: string, keywords: seq<string>): (r: Option<nat>)
    ensures r.None? <==> NoneOccurs(lowered, keywords)
    ensures r.Some? ==> r.value <= |lowered|
    ensures r.Some? ==> exists j :: 0 <= j < |keywords| && NoneOccurs(lowered, keywords[..j])
                          && IndexOf(lowered, keywords[j]) == r
  {
    if |keywords| == 0 then None
    else
      match IndexOf(lowered, keywords[0])
      case Some(i) =>
        assert NoneOccurs(lowered, keywords[..0]);
        Some(i)
      case None =>
        var rest := SectionStart(lowered, keywords[1..]);
        assert forall j :: 1 <= j < |keywords| ==> keywords[1..][j - 1] == keywords[j];
        assert rest.Some? ==> exists j :: 0 <= j < |keywords| && NoneOccurs(lowered, keywords[..j])
                                && IndexOf(lowered, keywords[j]) == rest by {
          if rest.Some? {
            var j :| 0 <= j < |keywords| - 1 && NoneOccurs(lowered, keywords[1..][..j])
                     && IndexOf(lowered, keywords[1..][j]) == rest;
            assert keywords[..j + 1] == [keywords[0]] + keywords[1..][..j];
            assert NoneOccurs(lowered, keywords[..j + 1]);
          }
        }
        rest
  }

  /** The excerpt of a section: up to 500 characters of the text from its start
      (the first 500 of a 1000-character window), then an ellipsis. */
  function Excerpt(text: string, start: nat): string
    requires start <= |text|
  {
    Take(Take(text[start..], ExcerptWindow), ExcerptLength) + Ellipsis
  }

  /** Where an excerpt that begins at `start` ends: 500 characters on, or at
      the end of a text of length `size`. */
  function ExcerptEnd(size: nat, start: nat): nat
  {
    if start + ExcerptLength <= size then start + ExcerptLength else size
  }

  /** The text of one section, `''` when none of its keywords occurs. */
  function SectionText(text: string, s: Section): string
  {
    var lowered := Lower(text);
    match SectionStart(lowered, s.Keywords())
    case None => ""
    case Some(start) =>
      Excerpt(text, start)
  }

  /** What the text of one section is: empty exactly when no keyword occurs,
      otherwise a non-empty excerpt of at most 500 characters and an ellipsis. */
  lemma SectionTextShape(text: string, s: Section)
    ensures SectionText(text, s) == "" <==> NoneOccurs(Lower(text), s.Keywords())
    ensures SectionText(text, s) != "" ==>
              EndsWith(SectionText(text, s), Ellipsis) && 3 < |SectionText(text, s)| <= ExcerptLength + 3
  {
    var r := SectionText(text, s);
    if r != "" {
      assert r[|r| - 3..] == Ellipsis;
    }
  }

  /** The 1000-character window never matters: the excerpt is the text from
      its start, cut at 500 characters. */
  lemma ExcerptIsPrefix(text: string, start: nat)
    requires start <= |text|
    ensures Excerpt(text, start) == text[start..ExcerptEnd(|text|, start)] + Ellipsis
  {
  }

  /** `t` is what section `s` of `text` should read: the text from where its
      first keyword occurs, cut at 500 characters, then an ellipsis; `''` when
      no keyword occurs. */
  predicate IsSectionOf(text: string, s: Section, t: string)
  {
    match SectionStart(Lower(text), s.Keywords())
    case None => t == ""
    case Some(start) => t == text[start..ExcerptEnd(|text|, start)] + Ellipsis
  }

  /** Each section's text is the one the description above gives. */
  lemma SectionTextValue(text: string, s: Section)
    ensures IsSectionOf(text, s, SectionText(text, s))
  {
    var found := SectionStart(Lower(text), s.Keywords());
    if found.Some? {
      ExcerptIsPrefix(text, found.value);
    }
  }

  /** An excerpt taken where a short keyword occurs in the lowered text begins with it, ignoring case. */
  lemma ExcerptAtKeyword(text: string, start: nat, kw: string)
    requires |kw| <= ExcerptLength && OccursAt(Lower(text), kw, start)
    ensures |kw| + 3 <= |Excerpt(text, start)|
    ensures Lower(Excerpt(text, start))[..|kw|] == kw
  {
    var e := Excerpt(text, start);
    ExcerptIsPrefix(text, start);
    assert forall i :: 0 <= i < |kw| ==> e[i] == text[start + i];
    assert forall i :: 0 <= i < |kw| ==> Lower(e)[i] == Lower(text)[start + i] == kw[i];
  }

  /** No keyword is longer than 15 characters. */
  lemma ShortKeywords(s: Section)
    ensures forall i :: 0 <= i < |s.Keywords()| ==> |s.Keywords()[i]| <= 15
  {
  }

  /** A found section begins, ignoring letter case, with one of its keywords. */
  lemma SectionStartsWithKeyword(text: string, s: Section)
    ensures SectionText(text, s) != "" ==>
              exists j :: 0 <= j < |s.Keywords()| && |s.Keywords()[j]| + 3 <= |SectionText(text, s)|
                          && Lower(SectionText(text, s))[..|s.Keywords()[j]|] == s.Keywords()[j]
  {
    var lowered := Lower(text);
    var kws := s.Keywords();
    var found := SectionStart(lowered, kws);
    if found.Some? {
      var start := found.value;
      var j :| 0 <= j < |kws| && NoneOccurs(lowered, kws[..j]) && IndexOf(lowered, kws[j]) == Some(start);
      ShortKeywords(s);
      assert OccursAt(lowered, kws[j], start);
      ExcerptAtKeyword(text, start, kws[j]);
      assert SectionText(text, s) == Excerpt(text, start);
    }
  }

  /** A keyword that contains an earlier one at some offset occurs only where the earlier one does. */
  lemma ContainedKeyword(lowered: string, outer: string, inner: string, offset: nat)
    requires OccursAt(outer, inner, offset)
    ensures Contains(lowered, outer) ==> Contains(lowered, inner)
  {
    if Contains(lowered, outer) {
      var i := IndexOf(lowered, outer).value;
      assert lowered[i + offset..i + offset + |inner|] == outer[offset..offset + |inner|];
      assert OccursAt(lowered, inner, i + offset);
    }
  }

  /** The numbered headings never decide where the introduction starts: each
      contains `introduction`, which is tried first. */
  lemma IntroductionStartsAtWord(text: string)
    ensures SectionStart(Lower(text), Introduction.Keywords()) == IndexOf(Lower(text), "introduction")
  {
    var lowered := Lower(text);
    assert "1. introduction"[3..15] == "introduction";
    ContainedKeyword(lowered, "1. introduction", "introduction", 3);
    assert "1 introduction"[2..14] == "introduction";
    ContainedKeyword(lowered, "1 introduction", "introduction", 2);
    if !Contains(lowered, "introduction") {
      assert NoneOccurs(lowered, Introduction.Keywords());
    }
  }

  /** Likewise `conclusions` never decides where the conclusion starts. */
  lemma ConclusionIgnoresPlural(text: string)
    ensures SectionStart(Lower(text), Conclusion.Keywords())
            == SectionStart(Lower(text), ["conclusion", "discussion"])
  {
    var lowered := Lower(text);
    assert "conclusions"[..10] == "conclusion";
    ContainedKeyword(lowered, "conclusions", "conclusion", 0);
  }

  /** `extract_sections`: exactly the six sections, each empty when none of
      its keywords occurs and otherwise a bounded excerpt ending in an ellipsis. */
  function ExtractSections(text: string): (r: map<Section, string>)
    ensures r.Keys == AllSections
    ensures forall s :: s in r ==> (r[s] == "" <==> NoneOccurs(Lower(text), s.Keywords()))
    ensures forall s :: s in r && r[s] != "" ==>
              EndsWith(r[s], Ellipsis) && 3 < |r[s]| <= ExcerptLength + 3
    ensures forall s :: s in r ==> IsSectionOf(text, s, r[s])
  {
    var r := map s | s in AllSections :: SectionText(text, s);
    assert forall s :: s in r ==> r[s] == SectionText(text, s);
    forall s ensures SectionText(text, s) == "" <==> NoneOccurs(Lower(text), s.Keywords())
      ensures SectionText(text, s) != "" ==>
                EndsWith(SectionText(text, s), Ellipsis) && 3 < |SectionText(text, s)| <= ExcerptLength + 3
      ensures IsSectionOf(text, s, SectionText(text, s))
    {
      SectionTextShape(text, s);
      SectionTextValue(text, s);
    }
    r
  }
}

=== FILE: enrichment.dfy ===
/**
 `ResearchGapAgent.fetch_and_analyze_paper`: for an arXiv link, the abstract
 page's title, abstract and authors are read, a 500-character summary is
 derived, and the language model may fill in concepts, methodology and theme.
 Any other link yields a fixed placeholder. The page fetch and HTML parsing
 are given as a `PageFetch`; the model's answer, already extracted from its
 JSON, as an oracle.
 */
module Enrichment {
  import opened Common
  import opened Text
  import opened ArxivFeed

  const SummaryLength := 500
  const PromptAbstractLength := 1000
  const ArxivHost := "arxiv.org"

  /** The parts of an arXiv abstract page that are read: the title heading,
      the abstract block, and the link texts of the authors block (each `None`
      when the page lacks that element). */
  datatype ArxivPage = ArxivPage(
    titleHeading: Option<string>,
    abstractBlock: Option<string>,
    authorLinks: Option<seq<string>>)

  /** The page request: it raised, or it returned a status and (when the status
      is 200) a parsed page. */
  datatype PageFetch = FetchRaised | PageReply(status: int, page: ArxivPage)

  /** The keys of the model's JSON answer that replace the defaults. */
  datatype AnalysisUpdate = AnalysisUpdate(
    keyConcepts: Option<seq<string>>,
    methodology: Option<string>,
    theme: Option<string>)

  /** The model as seen by the analysis step: no client, or a function from
      (title, first 1000 characters of the abstract) to the parsed answer
      (`None` when the call raised or no JSON object could be read). */
  datatype Analyst = NoAnalyst | Analyst(answer: (string, string) -> Option<AnalysisUpdate>)

  datatype EnrichedPaper = EnrichedPaper(
    title: string,
    abstractText: string,
    authors: seq<string>,
    url: string,
    pdfUrl: string,
    summary: string,
    keyConcepts: seq<string>,
    methodology: string,
    theme: string)

  /** The `data` of a successful result: an analysed arXiv page, or the
      placeholder for links that could not be read as one. */
  datatype PaperData =
    | Analyzed(paper: EnrichedPaper)
    | Placeholder(title: string, url: string, summary: string)

  /** `{'success': True, 'data': ...}` or `{'success': False, ...}`. */
  datatype FetchResult = Fetched(data: PaperData) | FetchFailed

  const DefaultMethodology := "Not analyzed"
  const DefaultTheme := "General"

  /** The abstract itself when short, else its first 500 characters and an ellipsis. */
  function AbstractSummary(abstractText: string): (s: string)
    ensures |s| <= SummaryLength + 3
    ensures |abstractText| <= SummaryLength ==> s == abstractText
    ensures |abstractText| > SummaryLength ==>
              |s| == SummaryLength + 3 && s[..SummaryLength] == abstractText[..SummaryLength]
              && EndsWith(s, "...")
  {
    if |abstractText| > SummaryLength then abstractText[..SummaryLength] + "..." else abstractText
  }

  /** The element text with every occurrence of its label removed, then stripped; `''` without the element. */
  function Cleaned(text: Option<string>, prefix: string): string
    requires |prefix| > 0
  {
    if text.Some? then Strip(Replace(text.value, prefix, "")) else ""
  }

  /** The record before the model is asked. */
  function BaseRecord(url: string, page: ArxivPage): EnrichedPaper
  {
    var abstractText := Cleaned(page.abstractBlock, "Abstract:");
    EnrichedPaper(
      title := Cleaned(page.titleHeading, "Title:"),
      abstractText := abstractText,
      authors := if page.authorLinks.Some? then StripAll(page.authorLinks.value) else [],
      url := url,
      pdfUrl := PdfUrl(url),
      summary := AbstractSummary(abstractText),
      keyConcepts := [],
      methodology := DefaultMethodology,
      theme := DefaultTheme)
  }

  /** `analysis.update(...)`: the keys the answer carries replace the record's. */
  function ApplyUpdate(p: EnrichedPaper, u: AnalysisUpdate): (r: EnrichedPaper)
    ensures r.(keyConcepts := p.keyConcepts, methodology := p.methodology, theme := p.theme) == p
    ensures r.keyConcepts == (if u.keyConcepts.Some? then u.keyConcepts.value else p.keyConcepts)
    ensures r.methodology == (if u.methodology.Some? then u.methodology.value else p.methodology)
    ensures r.theme == (if u.theme.Some? then u.theme.value else p.theme)
  {
    p.(keyConcepts := u.keyConcepts.GetOr(p.keyConcepts),
       methodology := u.methodology.GetOr(p.methodology),
       theme := u.theme.GetOr(p.theme))
  }

  /** Applying the same answer twice is applying it once, and an answer
      without keys changes nothing. */
  lemma ApplyUpdateIdempotent(p: EnrichedPaper, u: AnalysisUpdate)
    ensures ApplyUpdate(ApplyUpdate(p, u), u) == ApplyUpdate(p, u)
    ensures ApplyUpdate(p, AnalysisUpdate(None, None, None)) == p
  {
  }

  /** The analysis step: asked only with a client and a non-empty abstract. */
  function Analyze(p: EnrichedPaper, analyst: Analyst): EnrichedPaper
  {
    if analyst.Analyst? && |p.abstractText| > 0 then
      match analyst.answer(p.title, Take(p.abstractText, PromptAbstractLength))
      case None => p
      case Some(u) => ApplyUpdate(p, u)
    else p
  }

  /** `fetch_and_analyze_paper`. */
  function FetchAndAnalyzePaper(url: string, fetch: PageFetch, analyst: Analyst): (r: FetchResult)
    ensures !Contains(url, ArxivHost) ==> r == Fetched(ExternalPlaceholder(url))
    ensures Contains(url, ArxivHost) && fetch.FetchRaised? ==> r == FetchFailed
    ensures Contains(url, ArxivHost) && fetch.PageReply? && fetch.status != 200 ==>
              r == Fetched(ExternalPlaceholder(url))
    ensures Contains(url, ArxivHost) && fetch.PageReply? && fetch.status == 200 ==>
              r.Fetched? && r.data.Analyzed?
              && r.data.paper.url == url && r.data.paper.pdfUrl == PdfUrl(url)
              && r.data.paper.summary == AbstractSummary(r.data.paper.abstractText)
              && r.data.paper.title == Cleaned(fetch.page.titleHeading, "Title:")
              && r.data.paper.abstractText == Cleaned(fetch.page.abstractBlock, "Abstract:")
              && r.data.paper.authors == (if fetch.page.authorLinks.Some? then StripAll(fetch.page.authorLinks.value) else [])
  {
    if !Contains(url, ArxivHost) then Fetched(ExternalPlaceholder(url))
    else
      match fetch
      case FetchRaised => FetchFailed
      case PageReply(status, page) =>
        if status == 200 then Fetched(Analyzed(Analyze(BaseRecord(url, page), analyst)))
        else Fetched(ExternalPlaceholder(url))
  }

  function ExternalPlaceholder(url: string): PaperData
  {
    Placeholder("External Paper", url, "External paper - manual review needed")
  }

  /** Without a usable analysis, the derived fields keep their defaults while
      the page fields are still filled in. */
  lemma AnalysisDefaults(url: string, page: ArxivPage, analyst: Analyst)
    requires Contains(url, ArxivHost)
    requires analyst.NoAnalyst?
             || Cleaned(page.abstractBlock, "Abstract:") == ""
             || analyst.answer(Cleaned(page.titleHeading, "Title:"),
                               Take(Cleaned(page.abstractBlock, "Abstract:"), PromptAbstractLength)).None?
    ensures var r := FetchAndAnalyzePaper(url, PageReply(200, page), analyst);
            && r.Fetched? && r.data.Analyzed?
            && r.data.paper.keyConcepts == []
            && r.data.paper.methodology == DefaultMethodology
            && r.data.paper.theme == DefaultTheme
            && r.data.paper.title == Cleaned(page.titleHeading, "Title:")
            && r.data.paper.abstractText == Cleaned(page.abstractBlock, "Abstract:")
  {
  }
}

=== FILE: gap_agent.dfy ===
/**
 The decision logic of `ResearchGapAgent.find_papers_for_gaps`: build the
 search queries, search arXiv with the first two, deduplicate, rank (the
 identity), and select the first candidate the knowledge store does not know.
 The language model, the arXiv endpoint and the Notion lookup are oracles
 passed in as parameters.
 */
module GapAgent {
  import opened Common
  import opened Text
  import opened ArxivFeed
  import opened Deduplication

  const GapQueryWords := 10
  const MaxLlmQueries := 3
  const DispatchedQueries := 2
  const MaxResultsPerQuery := 3
  const StorePrefixLength := 30

  /** The outcome of asking the language model: no client configured, the call
      raised, or the text of its reply. */
  datatype LlmReply = NoLlmClient | LlmRaised | LlmText(text: string)

  /** The exception that escapes query generation. */
  datatype AgentError = IndexError

  /** The queries built without the language model: the first ten words of the
      gap text, and, when concepts are given, the first concept followed by the
      first word of the gap text (which raises when there is no such word). */
  function BaselineQueries(gaps: string, concepts: seq<string>): (r: Result<seq<string>, AgentError>)
    ensures r.Err? <==> |concepts| > 0 && |Words(gaps)| == 0
    ensures r.Ok? ==> |r.value| == (if |concepts| > 0 then 2 else 1)
    ensures r.Ok? ==> Words(r.value[0]) == Take(Words(gaps), GapQueryWords)
    ensures r.Ok? ==> r.value[0] == Join(" ", Words(r.value[0]))
    ensures r.Ok? && |concepts| > 0 ==> r.value[1] == concepts[0] + " " + Words(gaps)[0]
  {
    var words := Words(gaps);
    var gapQuery := Join(" ", Take(words, GapQueryWords));
    WordsOfJoin(Take(words, GapQueryWords));
    if |concepts| == 0 then Ok([gapQuery])
    else if |words| == 0 then Err(IndexError)
    else Ok([gapQuery, concepts[0] + " " + words[0]])
  }

  /** None of the strings contains a line break. */
  predicate NoLineBreaks(lines: seq<string>)
  {
    forall k :: 0 <= k < |lines| ==> Lacks(lines[k], '\n')
  }

  /** A non-empty string with no whitespace at either end, as `strip()` leaves a non-blank line. */
  predicate Stripped(q: string)
  {
    |q| > 0 && !IsSpace(q[0]) && !IsSpace(q[|q| - 1])
  }

  predicate AllStripped(qs: seq<string>)
  {
    forall k :: 0 <= k < |qs| ==> Stripped(qs[k])
  }

  /** Both properties hold of a concatenation exactly when they hold of its parts. */
  lemma AppendLines(a: seq<string>, b: seq<string>)
    ensures NoLineBreaks(a + b) <==> NoLineBreaks(a) && NoLineBreaks(b)
    ensures AllStripped(a + b) <==> AllStripped(a) && AllStripped(b)
  {
    var all := a + b;
    assert forall k :: 0 <= k < |a| ==> all[k] == a[k];
    assert forall k :: 0 <= k < |b| ==> all[|a| + k] == b[k];
    if NoLineBreaks(a) && NoLineBreaks(b) {
      forall k | |a| <= k < |all| ensures Lacks(all[k], '\n') {
        assert all[k] == b[k - |a|];
      }
    }
    if AllStripped(a) && AllStripped(b) {
      forall k | |a| <= k < |all| ensures Stripped(all[k]) {
        assert all[k] == b[k - |a|];
      }
    }
  }

  /** `q` is a non-blank line of `lines`, stripped. */
  ghost predicate FromLines(q: string, lines: seq<string>)
  {
    q != "" && q in StripAll(lines)
  }

  /** Every text of `r` is a non-blank line of `lines`, stripped, and every
      non-blank line of `lines` contributes its stripped text. */
  ghost predicate SameLines(r: seq<string>, lines: seq<string>)
  {
    forall q :: q in r <==> FromLines(q, lines)
  }

  /** What `[q.strip() for q in lines if q.strip()]` yields, stated
      declaratively: stripped, non-empty texts, no more than the lines and
      with no line break the input lacked; exactly the input's non-blank
      lines, stripped; and in the input's order. */
  ghost predicate NonBlankOf(r: seq<string>, lines: seq<string>)
  {
    && |r| <= |lines|
    && AllStripped(r)
    && (NoLineBreaks(lines) ==> NoLineBreaks(r))
    && SameLines(r, lines)
    && IsSubsequence(r, StripAll(lines))
    && multiset(r) == multiset(StripAll(lines))["" := 0]
  }

  /** The text one more line adds: its strip, unless that is empty. */
  function Contribution(line: string): seq<string>
  {
    if Strip(line) != "" then [Strip(line)] else []
  }

  lemma ShapeStep(lines: seq<string>, rest: seq<string>)
    requires |lines| > 0
    requires |rest| < |lines| && AllStripped(rest)
    requires NoLineBreaks(lines[..|lines| - 1]) ==> NoLineBreaks(rest)
    ensures var r := rest + Contribution(lines[|lines| - 1]);
            |r| <= |lines| && AllStripped(r) && (NoLineBreaks(lines) ==> NoLineBreaks(r))
  {
    var n := |lines| - 1;
    assert lines[..n] + [lines[n]] == lines;
    AppendLines(lines[..n], [lines[n]]);
    StripKeepsAbsent(lines[n], '\n');
    AppendLines(rest, Contribution(lines[n]));
    if NoLineBreaks([lines[n]]) {
      assert [lines[n]][0] == lines[n];
    }
  }

  /** Stripping every line of a list with a last line. */
  lemma StripAllSnoc(lines: seq<string>)
    requires |lines| > 0
    ensures StripAll(lines) == StripAll(lines[..|lines| - 1]) + [Strip(lines[|lines| - 1])]
  {
    var n := |lines| - 1;
    assert forall k :: 0 <= k < n ==> lines[..n][k] == lines[k];
  }

  lemma MembersStep(lines: seq<string>, rest: seq<string>)
    requires |lines| > 0 && SameLines(rest, lines[..|lines| - 1])
    ensures SameLines(rest + Contribution(lines[|lines| - 1]), lines)
  {
    var n := |lines| - 1;
    var r := rest + Contribution(lines[n]);
    StripAllSnoc(lines);
    forall t ensures t in r <==> FromLines(t, lines) {
      assert t in StripAll(lines) <==> t in StripAll(lines[..n]) || t == Strip(lines[n]);
      assert t in r <==> t in rest || t in Contribution(lines[n]);
    }
  }

  lemma OrderStep(lines: seq<string>, rest: seq<string>)
    requires |lines| > 0 && IsSubsequence(rest, StripAll(lines[..|lines| - 1]))
    ensures IsSubsequence(rest + Contribution(lines[|lines| - 1]), StripAll(lines))
  {
    var n := |lines| - 1;
    var ys := StripAll(lines);
    var q := Strip(lines[n]);
    StripAllSnoc(lines);
    assert ys[..n] == StripAll(lines[..n]);
    if q != "" {
      var r := rest + [q];
      assert r[|r| - 1] == ys[|ys| - 1];
      assert r[..|r| - 1] == rest;
    } else if |rest| > 0 {
      assert rest + Contribution(lines[n]) == rest;
    }
  }

  lemma CountStep(lines: seq<string>, rest: seq<string>)
    requires |lines| > 0 && multiset(rest) == multiset(StripAll(lines[..|lines| - 1]))["" := 0]
    ensures multiset(rest + Contribution(lines[|lines| - 1])) == multiset(StripAll(lines))["" := 0]
  {
    var n := |lines| - 1;
    var q := Strip(lines[n]);
    var before := multiset(StripAll(lines[..n]));
    StripAllSnoc(lines);
    assert multiset(StripAll(lines)) == before + multiset{q};
    if q == "" {
      assert (before + multiset{q})["" := 0] == before["" := 0];
    } else {
      assert (before + multiset{q})["" := 0] == before["" := 0] + multiset{q};
    }
  }

  /** One more line keeps the description, whether it is blank or not. */
  lemma NonBlankStep(lines: seq<string>, rest: seq<string>)
    requires |lines| > 0 && NonBlankOf(rest, lines[..|lines| - 1])
    ensures NonBlankOf(rest + Contribution(lines[|lines| - 1]), lines)
  {
    ShapeStep(lines, rest);
    MembersStep(lines, rest);
    OrderStep(lines, rest);
    CountStep(lines, rest);
  }

  /** The stripped, non-blank lines among `lines`, in order. */
  function NonBlank(lines: seq<string>): (r: seq<string>)
    ensures NonBlankOf(r, lines)
    decreases |lines|
  {
    if |lines| == 0 then []
    else
      var n := |lines| - 1;
      var rest := NonBlank(lines[..n]);
      NonBlankStep(lines, rest);
      rest + Contribution(lines[n])
  }

  /** Lines that are already stripped and non-blank all survive, unchanged. */
  lemma {:induction false} NonBlankOfStripped(lines: seq<string>)
    requires AllStripped(lines)
    ensures NonBlank(lines) == lines
    decreases |lines|
  {
    if |lines| > 0 {
      var n := |lines| - 1;
      AppendLines(lines[..n], [lines[n]]);
      assert lines == lines[..n] + [lines[n]];
      NonBlankOfStripped(lines[..n]);
      StripOfStripped(lines[n]);
    }
  }

  /** A prefix keeps both properties. */
  lemma TakeLines(qs: seq<string>, n: nat)
    requires AllStripped(qs) && NoLineBreaks(qs)
    ensures AllStripped(Take(qs, n)) && NoLineBreaks(Take(qs, n))
  {
    assert forall k :: 0 <= k < |Take(qs, n)| ==> Take(qs, n)[k] == qs[k];
  }

  /** The queries read from a model reply: the first three of its non-blank
      lines, each stripped. */
  function ReplyQueries(text: string): (qs: seq<string>)
    ensures |qs| <= MaxLlmQueries
    ensures AllStripped(qs) && NoLineBreaks(qs)
    ensures var lines := NonBlank(SplitOn(Strip(text), '\n'));
            && |qs| == (if |lines| <= MaxLlmQueries then |lines| else MaxLlmQueries)
            && qs == lines[..|qs|]
  {
    ReplyLines(text);
    FirstQueries(NonBlank(SplitOn(Strip(text), '\n')))
  }

  /** At most the first three of some stripped, line-free queries. */
  function FirstQueries(lines: seq<string>): (qs: seq<string>)
    requires AllStripped(lines) && NoLineBreaks(lines)
    ensures AllStripped(qs) && NoLineBreaks(qs)
    ensures |qs| == (if |lines| <= MaxLlmQueries then |lines| else MaxLlmQueries)
    ensures qs == lines[..|qs|]
  {
    TakeLines(lines, MaxLlmQueries);
    Take(lines, MaxLlmQueries)
  }

  /** The non-blank lines of a reply are stripped and hold no line break. */
  lemma ReplyLines(text: string)
    ensures var lines := NonBlank(SplitOn(Strip(text), '\n'));
            AllStripped(lines) && NoLineBreaks(lines)
  {
    var parts := SplitOn(Strip(text), '\n');
    assert NoLineBreaks(parts);
  }

  /** A reply in the requested shape, one query per line, gives back exactly
      those queries. */
  lemma ReplyOfQueries(queries: seq<string>)
    requires |queries| <= MaxLlmQueries
    requires AllStripped(queries) && NoLineBreaks(queries)
    ensures ReplyQueries(Join("\n", queries)) == queries
  {
    if |queries| == 0 {
      EmptyReply();
    } else {
      LinesOfJoin(queries);
      NonBlankOfStripped(queries);
    }
  }

  /** An empty reply has no queries. */
  lemma EmptyReply()
    ensures ReplyQueries("") == []
  {
    assert Strip("") == "";
    assert SplitOn("", '\n') == [""];
    assert NonBlank([""]) == NonBlank([]) + Contribution("") by {
      assert [""][..0] == [];
    }
  }

  /** Lines with no whitespace at their ends, joined, need no stripping. */
  lemma JoinedIsStripped(queries: seq<string>)
    requires |queries| > 0 && AllStripped(queries)
    ensures Strip(Join("\n", queries)) == Join("\n", queries)
  {
    var text := Join("\n", queries);
    var last := queries[|queries| - 1];
    assert Stripped(queries[0]) && Stripped(last);
    assert forall k :: 0 <= k < |queries| ==> |queries[k]| > 0 by {
      assert forall k :: 0 <= k < |queries| ==> Stripped(queries[k]);
    }
    JoinEnds("\n", queries);
    assert !IsSpace(text[0]) && !IsSpace(text[|text| - 1]);
    StripOfStripped(text);
  }

  /** Stripping and splitting the lines joined with line breaks gives the lines back. */
  lemma LinesOfJoin(queries: seq<string>)
    requires |queries| > 0
    requires AllStripped(queries) && NoLineBreaks(queries)
    ensures SplitOn(Strip(Join("\n", queries)), '\n') == queries
  {
    JoinedIsStripped(queries);
    assert forall k :: 0 <= k < |queries| ==> Lacks(queries[k], '\n');
    SplitOnJoin(queries, '\n');
    assert ['\n'] == "\n";
  }

  /** `_generate_search_queries`: the model's queries replace the baseline when
      it answers; a raising model leaves the baseline in place. */
  function GenerateQueries(gaps: string, concepts: seq<string>, llm: LlmReply): (r: Result<seq<string>, AgentError>)
    ensures r.Err? <==> BaselineQueries(gaps, concepts).Err?
    ensures !llm.LlmText? ==> r == BaselineQueries(gaps, concepts)
    ensures llm.LlmText? && r.Ok? ==> r.value == ReplyQueries(llm.text)
    ensures r.Ok? ==> |r.value| <= MaxLlmQueries
  {
    match BaselineQueries(gaps, concepts)
    case Err(e) => Err(e)
    case Ok(baseline) =>
      match llm
      case LlmText(text) => Ok(ReplyQueries(text))
      case _ => Ok(baseline)
  }

  /** The papers returned for each query, concatenated in query order. */
  function SearchEach(queries: seq<string>, fetch: (string, nat) -> FeedReply): seq<Paper>
  {
    if |queries| == 0 then []
    else SearchArxiv(fetch(queries[0], MaxResultsPerQuery)) + SearchEach(queries[1..], fetch)
  }

  /** The candidate list: only the first two queries are sent, three results each. */
  function Candidates(queries: seq<string>, fetch: (string, nat) -> FeedReply): seq<Paper>
  {
    SearchEach(Take(queries, DispatchedQueries), fetch)
  }

  /** Which queries are sent, with which bound, and in which order their results are joined. */
  lemma CandidatesFromFirstTwo(queries: seq<string>, fetch: (string, nat) -> FeedReply)
    ensures |queries| == 0 ==> Candidates(queries, fetch) == []
    ensures |queries| == 1 ==> Candidates(queries, fetch) == SearchArxiv(fetch(queries[0], MaxResultsPerQuery))
    ensures |queries| >= 2 ==>
              Candidates(queries, fetch) == SearchArxiv(fetch(queries[0], MaxResultsPerQuery)) + SearchArxiv(fetch(queries[1], MaxResultsPerQuery))
  {
    var sent := Take(queries, DispatchedQueries);
    if |queries| == 1 {
      assert SearchEach(sent[1..], fetch) == [];
    } else if |queries| >= 2 {
      assert sent[1..][1..] == [];
      assert sent[1..][0] == queries[1];
      assert SearchEach(sent[1..], fetch) == SearchArxiv(fetch(queries[1], MaxResultsPerQuery)) + SearchEach([], fetch);
    }
  }

  /** Queries after the second never influence the candidates. */
  lemma CandidatesIgnoreLaterQueries(q1: seq<string>, q2: seq<string>, fetch: (string, nat) -> FeedReply)
    requires Take(q1, DispatchedQueries) == Take(q2, DispatchedQueries)
    ensures Candidates(q1, fetch) == Candidates(q2, fetch)
  {
  }

  /** The result of the Notion query for a title fragment: it raised, or it
      returned this many matching pages. */
  datatype LookupOutcome = LookupRaised | Matches(count: nat)

  /** The knowledge store as the agent sees it: no client, or a lookup. */
  datatype Store = NoStore | Store(lookup: string -> LookupOutcome)

  /** `paper_exists_in_notion`: a partial-match lookup of the first 30 title
      characters; no client and a raising lookup both answer "not there". */
  function PaperExists(store: Store, title: string): (b: bool)
    ensures store.NoStore? ==> !b
    ensures store.Store? && store.lookup(Take(title, StorePrefixLength)).LookupRaised? ==> !b
    ensures store.Store? && store.lookup(Take(title, StorePrefixLength)).Matches? ==>
              (b <==> store.lookup(Take(title, StorePrefixLength)).count > 0)
  {
    match store
    case NoStore => false
    case Store(lookup) =>
      match lookup(Take(title, StorePrefixLength))
      case LookupRaised => false
      case Matches(count) => count > 0
  }

  /** Only the first 30 characters of a title reach the store. */
  lemma ExistsDependsOnPrefix(store: Store, t1: string, t2: string)
    requires Take(t1, StorePrefixLength) == Take(t2, StorePrefixLength)
    ensures PaperExists(store, t1) == PaperExists(store, t2)
  {
  }

  /** Every earlier paper of the list is already known to the store. */
  predicate AllKnownBefore(ranked: seq<Paper>, store: Store, i: nat)
    requires i <= |ranked|
  {
    forall j :: 0 <= j < i ==> PaperExists(store, ranked[j].title)
  }

  /** The first ranked paper the store does not know, if any. */
  function SelectNew(ranked: seq<Paper>, store: Store): (r: Option<nat>)
    ensures r.None? <==> AllKnownBefore(ranked, store, |ranked|)
    ensures r.Some? ==> r.value < |ranked| && !PaperExists(store, ranked[r.value].title)
                        && AllKnownBefore(ranked, store, r.value)
    decreases |ranked|
  {
    if |ranked| == 0 then None
    else if !PaperExists(store, ranked[0].title) then Some(0)
    else
      var rest := SelectNew(ranked[1..], store);
      assert forall j :: 1 <= j < |ranked| ==> ranked[1..][j - 1] == ranked[j];
      match rest
      case None => None
      case Some(i) => Some(i + 1)
  }

  /** `_rank_papers_by_relevance`: the papers are returned as they are. */
  function RankPapers(papers: seq<Paper>, gaps: string): seq<Paper>
  {
    papers
  }

  /** What `find_papers_for_gaps` returns. */
  datatype GapReport = GapReport(papers: seq<Paper>, summary: string, searchQueries: seq<string>)

  function FoundSummary(count: nat): string
  {
    "Found " + NatToString(count) + " papers addressing the research gaps"
  }

  /** The number the summary reports reads back as the count of candidates. */
  lemma FoundSummaryCount(count: nat)
    ensures exists digits: string ::
              && (forall k :: 0 <= k < |digits| ==> '0' <= digits[k] <= '9')
              && ParseNat(digits) == count
              && FoundSummary(count) == "Found " + digits + " papers addressing the research gaps"
  {
    ParseNatToString(count);
    var digits := NatToString(count);
    assert FoundSummary(count) == "Found " + digits + " papers addressing the research gaps";
  }

  /** `find_papers_for_gaps`. The original paper's title is accepted and unused, as in the source. */
  function FindPapersForGaps(
    gaps: string, concepts: seq<string>, originalTitle: string,
    llm: LlmReply, fetch: (string, nat) -> FeedReply, store: Store): (r: Result<GapReport, AgentError>)
    ensures r.Err? <==> |concepts| > 0 && |Words(gaps)| == 0
    ensures r.Ok? ==> GenerateQueries(gaps, concepts, llm).Ok?
                      && r.value.searchQueries == GenerateQueries(gaps, concepts, llm).value
    ensures r.Ok? ==> |r.value.papers| <= 1
    ensures r.Ok? ==>
              var unique := Dedup(Candidates(r.value.searchQueries, fetch));
              && r.value.summary == FoundSummary(|unique|)
              && (r.value.papers == [] <==> AllKnownBefore(unique, store, |unique|))
              && (r.value.papers != [] ==>
                    exists i :: 0 <= i < |unique| && unique[i] == r.value.papers[0]
                                && !PaperExists(store, unique[i].title) && AllKnownBefore(unique, store, i))
  {
    match GenerateQueries(gaps, concepts, llm)
    case Err(e) => Err(e)
    case Ok(queries) => Ok(ReportFor(gaps, queries, llm, fetch, store))
  }

  /** The report once the queries are known: search, deduplicate, rank (only
      with a client and candidates), and keep the first paper the store does not know. */
  function ReportFor(
    gaps: string, queries: seq<string>,
    llm: LlmReply, fetch: (string, nat) -> FeedReply, store: Store): GapReport
  {
    var unique := Dedup(Candidates(queries, fetch));
    var ranked := if !llm.NoLlmClient? && |unique| > 0 then RankPapers(unique, gaps) else unique;
    var selected := SelectNew(ranked, store);
    var papers := if selected.Some? then [ranked[selected.value]] else [];
    GapReport(papers, FoundSummary(|ranked|), queries)
  }

  /** Ranking leaves the candidates as they are, so having a language-model
      client or not never changes the report. */
  lemma ReportIgnoresClient(
    gaps: string, queries: seq<string>, llm: LlmReply, other: LlmReply,
    fetch: (string, nat) -> FeedReply, store: Store)
    ensures ReportFor(gaps, queries, llm, fetch, store) == ReportFor(gaps, queries, other, fetch, store)
  {
  }

  /** A store that cannot answer (or is missing) never hides a candidate: the
      first deduplicated candidate is selected. */
  lemma FailOpenSelectsFirst(
    gaps: string, concepts: seq<string>, originalTitle: string,
    llm: LlmReply, fetch: (string, nat) -> FeedReply, store: Store)
    requires store.NoStore? || forall t :: store.lookup(t).LookupRaised?
    requires !(|concepts| > 0 && |Words(gaps)| == 0)
    ensures var r := FindPapersForGaps(gaps, concepts, originalTitle, llm, fetch, store);
            var unique := Dedup(Candidates(r.value.searchQueries, fetch));
            r.Ok? && r.value.papers == Take(unique, 1)
  {
    var generated := GenerateQueries(gaps, concepts, llm);
    assert generated.Ok?;
    var queries := generated.value;
    FailOpenReport(gaps, queries, llm, fetch, store);
  }

  lemma FailOpenReport(
    gaps: string, queries: seq<string>,
    llm: LlmReply, fetch: (string, nat) -> FeedReply, store: Store)
    requires store.NoStore? || forall t :: store.lookup(t).LookupRaised?
    ensures ReportFor(gaps, queries, llm, fetch, store).papers == Take(Dedup(Candidates(queries, fetch)), 1)
  {
    var unique := Dedup(Candidates(queries, fetch));
    FailOpenSelectNew(unique, store);
  }

  /** Against a store that never answers "known", the first paper is selected. */
  lemma FailOpenSelectNew(ranked: seq<Paper>, store: Store)
    requires store.NoStore? || forall t :: store.lookup(t).LookupRaised?
    ensures SelectNew(ranked, store) == if |ranked| > 0 then Some(0) else None
  {
    if |ranked| > 0 {
      assert !PaperExists(store, ranked[0].title);
    }
  }
}

=== FILE: text.dfy ===
/**
 The Python string operations the core relies on, written out: `str.split()`
 (on whitespace runs), `str.split(c)`, `sep.join(...)`, `str.strip()`,
 `str.lower()` (restricted to ASCII letters), `str.replace`, `in` / `str.index`,
 and the decimal rendering of a count.
 */
module Text {
  import opened Common

  /** Python's `str.isspace()` for one character. */
  predicate IsSpace(c: char)
  {
    || c == ' '
    || ('\t' <= c <= '\r')
    || ('\U{1C}' <= c <= '\U{1F}')
    || c == '\U{85}' || c == '\U{A0}' || c == '\U{1680}'
    || ('\U{2000}' <= c <= '\U{200A}')
    || c == '\U{2028}' || c == '\U{2029}' || c == '\U{202F}' || c == '\U{205F}' || c == '\U{3000}'
  }

  /** A token of `str.split()`: non-empty and free of whitespace. */
  predicate IsWord(w: string)
  {
    |w| > 0 && forall k :: 0 <= k < |w| ==> !IsSpace(w[k])
  }

  predicate AllWords(ws: seq<string>)
  {
    forall k :: 0 <= k < |ws| ==> IsWord(ws[k])
  }

  /** The index where the whitespace-free run starting at `i` ends. */
  function WordEnd(s: string, i: nat): (j: nat)
    requires i <= |s|
    ensures i <= j <= |s|
    ensures forall k :: i <= k < j ==> !IsSpace(s[k])
    ensures j < |s| ==> IsSpace(s[j])
    decreases |s| - i
  {
    if i == |s| || IsSpace(s[i]) then i else WordEnd(s, i + 1)
  }

  /** Python's `s.split()`: the maximal whitespace-free runs of `s`, in order. */
  function Words(s: string): (ws: seq<string>)
    ensures AllWords(ws)
    decreases |s|
  {
    if |s| == 0 then []
    else if IsSpace(s[0]) then Words(s[1..])
    else
      var n := WordEnd(s, 0);
      [s[..n]] + Words(s[n..])
  }

  /** Python's `sep.join(xs)`. */
  function Join(sep: string, xs: seq<string>): string
    decreases |xs|
  {
    if |xs| == 0 then ""
    else if |xs| == 1 then xs[0]
    else xs[0] + sep + Join(sep, xs[1..])
  }

  /** A text has no words exactly when it is empty or all whitespace. */
  lemma {:induction false} WordsEmptyIffBlank(s: string)
    ensures Words(s) == [] <==> forall k :: 0 <= k < |s| ==> IsSpace(s[k])
    decreases |s|
  {
    if |s| > 0 && IsSpace(s[0]) {
      WordsEmptyIffBlank(s[1..]);
      assert forall k :: 1 <= k < |s| ==> s[k] == s[1..][k - 1];
    }
  }

  /** A word followed by whitespace (or nothing) is the first token of the text. */
  lemma WordsOfWordThen(w: string, t: string)
    requires IsWord(w)
    requires |t| == 0 || IsSpace(t[0])
    ensures Words(w + t) == [w] + Words(t)
  {
    var s := w + t;
    var n := WordEnd(s, 0);
    assert forall k :: 0 <= k < |w| ==> s[k] == w[k];
    assert |w| < |s| ==> s[|w|] == t[0];
    assert n == |w|;
    assert s[..n] == w;
    assert s[n..] == t;
  }

  /** Splitting the space-joined words gives the words back. */
  lemma {:induction false} WordsOfJoin(ws: seq<string>)
    requires AllWords(ws)
    ensures Words(Join(" ", ws)) == ws
    decreases |ws|
  {
    if |ws| == 1 {
      WordsOfWordThen(ws[0], "");
      assert ws[0] + "" == ws[0];
    } else if |ws| > 1 {
      var rest := Join(" ", ws[1..]);
      assert Join(" ", ws) == ws[0] + (" " + rest);
      WordsOfWordThen(ws[0], " " + rest);
      assert (" " + rest)[1..] == rest;
      WordsOfJoin(ws[1..]);
      assert ws == [ws[0]] + ws[1..];
    }
  }

  /** ASCII lower-casing of one character. */
  function LowerChar(c: char): char
  {
    if 'A' <= c <= 'Z' then (c as int + 32) as char else c
  }

  /** An ASCII capital letter. */
  predicate IsUpper(c: char)
  {
    'A' <= c <= 'Z'
  }

  /** `s.lower()`, character by character (so the length never changes). */
  function Lower(s: string): (r: string)
    ensures |r| == |s|
    ensures forall k :: 0 <= k < |s| ==> r[k] == LowerChar(s[k])
    ensures forall k :: 0 <= k < |r| ==> !IsUpper(r[k])
    ensures forall k :: 0 <= k < |s| && !IsUpper(s[k]) ==> r[k] == s[k]
    ensures forall k :: 0 <= k < |s| && IsUpper(s[k]) ==> r[k] as int == s[k] as int + 32 && 'a' <= r[k] <= 'z'
  {
    seq(|s|, k requires 0 <= k < |s| => LowerChar(s[k]))
  }

  /** Lower-casing a lower-cased text changes nothing. */
  lemma LowerIdempotent(s: string)
    ensures Lower(Lower(s)) == Lower(s)
  {
    var r := Lower(s);
    assert forall k :: 0 <= k < |r| ==> Lower(r)[k] == r[k];
  }

  /** Two texts lower-case alike exactly when they agree up to the case of ASCII letters. */
  lemma LowerEqualIff(s: string, t: string)
    ensures Lower(s) == Lower(t) <==>
            |s| == |t| && forall k :: 0 <= k < |s| ==> (s[k] == t[k] || (IsUpper(s[k]) && t[k] as int == s[k] as int + 32)
                                                   || (IsUpper(t[k]) && s[k] as int == t[k] as int + 32))
  {
    if |s| == |t| {
      if Lower(s) == Lower(t) {
        forall k | 0 <= k < |s|
          ensures s[k] == t[k] || (IsUpper(s[k]) && t[k] as int == s[k] as int + 32)
                  || (IsUpper(t[k]) && s[k] as int == t[k] as int + 32)
        {
          assert Lower(s)[k] == Lower(t)[k];
        }
      }
      if forall k :: 0 <= k < |s| ==> (s[k] == t[k] || (IsUpper(s[k]) && t[k] as int == s[k] as int + 32)
                                       || (IsUpper(t[k]) && s[k] as int == t[k] as int + 32)) {
        assert forall k :: 0 <= k < |s| ==> Lower(s)[k] == Lower(t)[k];
      }
    }
  }

  /** `s.lstrip()`: drop the leading whitespace. */
  function StripStart(s: string): (r: string)
    ensures |r| <= |s| && r == s[|s| - |r|..]
    ensures forall k :: 0 <= k < |s| - |r| ==> IsSpace(s[k])
    ensures |r| > 0 ==> !IsSpace(r[0])
    decreases |s|
  {
    if |s| > 0 && IsSpace(s[0]) then StripStart(s[1..]) else s
  }

  /** `s.rstrip()`: drop the trailing whitespace. */
  function StripEnd(s: string): (r: string)
    ensures |r| <= |s| && r == s[..|r|]
    ensures forall k :: |r| <= k < |s| ==> IsSpace(s[k])
    ensures |r| > 0 ==> !IsSpace(r[|r| - 1])
    decreases |s|
  {
    if |s| > 0 && IsSpace(s[|s| - 1]) then StripEnd(s[..|s| - 1]) else s
  }

  /** `s.strip()`: the text between the first and the last non-whitespace character. */
  function Strip(s: string): (r: string)
    ensures |r| > 0 ==> !IsSpace(r[0]) && !IsSpace(r[|r| - 1])
    ensures |r| == 0 <==> forall k :: 0 <= k < |s| ==> IsSpace(s[k])
    ensures exists i :: TrimmedAt(s, r, i)
  {
    var t := StripStart(s);
    var r := StripEnd(t);
    assert |r| == 0 ==> |t| == 0;
    StripParts(s);
    r
  }

  /** Right-stripping what left-stripping leaves trims `s` at the offset left-stripping stops. */
  lemma StripParts(s: string)
    ensures TrimmedAt(s, StripEnd(StripStart(s)), |s| - |StripStart(s)|)
  {
    var t := StripStart(s);
    TrimmedAfter(s, |s| - |t|, StripEnd(t));
  }

  /** Dropping leading whitespace and then trailing whitespace trims the text. */
  lemma TrimmedAfter(s: string, i: nat, r: string)
    requires i <= |s| && forall k :: 0 <= k < i ==> IsSpace(s[k])
    requires |r| <= |s| - i && r == s[i..][..|r|]
    requires forall k :: |r| <= k < |s| - i ==> IsSpace(s[i..][k])
    ensures TrimmedAt(s, r, i)
  {
    var t := s[i..];
    forall k | i + |r| <= k < |s| ensures IsSpace(s[k]) {
      assert s[k] == t[k - i];
    }
    assert t[..|r|] == s[i..i + |r|];
  }

  /** `r` is `s` without its first `i` characters and the characters after
      them and `r`, all of which are whitespace. */
  predicate TrimmedAt(s: string, r: string, i: nat)
  {
    && i + |r| <= |s| && r == s[i..i + |r|]
    && (forall k :: 0 <= k < i ==> IsSpace(s[k]))
    && (forall k :: i + |r| <= k < |s| ==> IsSpace(s[k]))
  }

  /** A text with no whitespace at either end is its own strip. */
  lemma StripOfStripped(s: string)
    requires |s| > 0 && !IsSpace(s[0]) && !IsSpace(s[|s| - 1])
    ensures Strip(s) == s
  {
    assert StripStart(s) == s;
  }

  /** Each text of the list, stripped, position by position. */
  function StripAll(xs: seq<string>): (r: seq<string>)
    ensures |r| == |xs|
    ensures forall k :: 0 <= k < |r| ==> r[k] == Strip(xs[k])
  {
    seq(|xs|, k requires 0 <= k < |xs| => Strip(xs[k]))
  }

  /** Stripping only removes characters from the two ends. */
  lemma StripIsInfix(s: string)
    ensures exists a: nat :: OccursAt(s, Strip(s), a)
  {
    var t := StripStart(s);
    assert OccursAt(s, Strip(s), |s| - |t|);
  }

  /** No position of `s` holds `c` (Python's `c not in s`). */
  predicate Lacks(s: string, c: char)
  {
    forall k :: 0 <= k < |s| ==> s[k] != c
  }

  /** Stripping never introduces a character. */
  lemma StripKeepsAbsent(s: string, c: char)
    ensures Lacks(s, c) ==> Lacks(Strip(s), c)
  {
    StripIsInfix(s);
    var r := Strip(s);
    var a: nat :| OccursAt(s, r, a);
    assert forall k :: 0 <= k < |r| ==> r[k] == s[a + k];
  }

  /** Python's `s.split(c)` for a one-character separator: every piece, empty ones included. */
  function SplitOn(s: string, c: char): (parts: seq<string>)
    ensures |parts| >= 1
    ensures forall k :: 0 <= k < |parts| ==> Lacks(parts[k], c)
    decreases |s|
  {
    if |s| == 0 then [""]
    else
      var rest := SplitOn(s[1..], c);
      if s[0] == c then [""] + rest else [[s[0]] + rest[0]] + rest[1..]
  }

  /** A join of non-empty texts starts with the first text's first character
      and ends with the last text's last character. */
  lemma {:induction false} JoinEnds(sep: string, xs: seq<string>)
    requires |xs| > 0
    requires forall k :: 0 <= k < |xs| ==> |xs[k]| > 0
    ensures |Join(sep, xs)| > 0
    ensures Join(sep, xs)[0] == xs[0][0]
    ensures Join(sep, xs)[|Join(sep, xs)| - 1] == xs[|xs| - 1][|xs[|xs| - 1]| - 1]
    decreases |xs|
  {
    if |xs| > 1 {
      JoinEnds(sep, xs[1..]);
    }
  }

  /** Joining the pieces with the separator rebuilds the text. */
  lemma {:induction false} JoinSplitOn(s: string, c: char)
    ensures Join([c], SplitOn(s, c)) == s
    decreases |s|
  {
    if |s| > 0 {
      var rest := SplitOn(s[1..], c);
      JoinSplitOn(s[1..], c);
      if s[0] == c {
        assert SplitOn(s, c) == [""] + rest;
        assert ([""] + rest)[1..] == rest;
        assert s == [c] + s[1..];
      } else {
        var parts := SplitOn(s, c);
        assert parts == [[s[0]] + rest[0]] + rest[1..];
        if |rest| == 1 {
          assert s == [s[0]] + rest[0];
        } else {
          assert parts[1..] == rest[1..];
          assert Join([c], rest) == rest[0] + [c] + Join([c], rest[1..]);
          assert s == [s[0]] + s[1..];
        }
      }
    }
  }

  /** A piece without the separator is split into itself. */
  lemma {:induction false} SplitOnPiece(a: string, c: char)
    requires Lacks(a, c)
    ensures SplitOn(a, c) == [a]
    decreases |a|
  {
    if |a| > 0 {
      SplitOnPiece(a[1..], c);
      assert [a[0]] + a[1..] == a;
    }
  }

  /** A leading piece up to the first separator becomes the first part. */
  lemma {:induction false} SplitOnFirst(a: string, c: char, rest: string)
    requires Lacks(a, c)
    ensures SplitOn(a + [c] + rest, c) == [a] + SplitOn(rest, c)
    decreases |a|
  {
    var s := a + [c] + rest;
    if |a| == 0 {
      assert s[1..] == rest;
    } else {
      assert s[1..] == a[1..] + [c] + rest;
      SplitOnFirst(a[1..], c, rest);
      assert [a[0]] + a[1..] == a;
    }
  }

  /** Joining pieces free of the separator and splitting again gives the pieces back. */
  lemma {:induction false} SplitOnJoin(parts: seq<string>, c: char)
    requires |parts| >= 1
    requires forall k :: 0 <= k < |parts| ==> Lacks(parts[k], c)
    ensures SplitOn(Join([c], parts), c) == parts
    decreases |parts|
  {
    if |parts| == 1 {
      SplitOnPiece(parts[0], c);
    } else {
      SplitOnFirst(parts[0], c, Join([c], parts[1..]));
      SplitOnJoin(parts[1..], c);
      assert parts == [parts[0]] + parts[1..];
    }
  }

  /** `pat` occurs in `s` starting at index `i`. */
  predicate OccursAt(s: string, pat: string, i: nat)
  {
    i + |pat| <= |s| && s[i..i + |pat|] == pat
  }

  /** The first index `>= i` where `pat` occurs. */
  function IndexFrom(s: string, pat: string, i: nat): (r: Option<nat>)
    ensures r.Some? ==> i <= r.value && OccursAt(s, pat, r.value)
    ensures r.Some? ==> forall k :: i <= k < r.value ==> !OccursAt(s, pat, k)
    ensures r.None? ==> forall k :: i <= k ==> !OccursAt(s, pat, k)
    decreases |s| - i
  {
    if i + |pat| > |s| then None
    else if s[i..i + |pat|] == pat then Some(i)
    else IndexFrom(s, pat, i + 1)
  }

  /** `s.index(pat)` when `pat in s`, and None otherwise. */
  function IndexOf(s: string, pat: string): Option<nat>
  {
    IndexFrom(s, pat, 0)
  }

  /** Python's `pat in s`. */
  predicate Contains(s: string, pat: string)
  {
    IndexOf(s, pat).Some?
  }

  /** Python's `s.replace(pat, rep)`: non-overlapping occurrences, left to right. */
  function Replace(s: string, pat: string, rep: string): (r: string)
    requires |pat| > 0
    ensures |pat| == |rep| ==> |r| == |s|
    decreases |s|
  {
    if |s| < |pat| then s
    else if s[..|pat|] == pat then rep + Replace(s[|pat|..], pat, rep)
    else [s[0]] + Replace(s[1..], pat, rep)
  }

  /** Replacing a pattern that does not occur leaves the text unchanged. */
  lemma {:induction false} ReplaceAbsent(s: string, pat: string, rep: string)
    requires |pat| > 0 && !Contains(s, pat)
    ensures Replace(s, pat, rep) == s
    decreases |s|
  {
    if |s| >= |pat| {
      assert !OccursAt(s, pat, 0);
      assert s[..|pat|] == s[0..0 + |pat|];
      forall k: nat ensures !OccursAt(s[1..], pat, k) {
        assert !OccursAt(s, pat, k + 1);
        if k + |pat| <= |s[1..]| {
          assert s[1..][k..k + |pat|] == s[k + 1..k + 1 + |pat|];
        }
      }
      IndexNoneIffAbsent(s[1..], pat);
      ReplaceAbsent(s[1..], pat, rep);
      assert s == [s[0]] + s[1..];
    }
  }

  lemma IndexNoneIffAbsent(s: string, pat: string)
    requires forall k: nat :: !OccursAt(s, pat, k)
    ensures !Contains(s, pat)
  {
  }

  /** Replacing one character by one character maps the text position by position. */
  lemma {:induction false} ReplaceChar(s: string, a: char, b: char)
    ensures |Replace(s, [a], [b])| == |s|
    ensures forall k :: 0 <= k < |s| ==> Replace(s, [a], [b])[k] == (if s[k] == a then b else s[k])
    decreases |s|
  {
    if |s| > 0 {
      ReplaceChar(s[1..], a, b);
      var r := Replace(s, [a], [b]);
      var tail := Replace(s[1..], [a], [b]);
      assert r == [if s[0] == a then b else s[0]] + tail by {
        assert s[..1] == [s[0]];
      }
      forall k | 0 < k < |s| ensures r[k] == (if s[k] == a then b else s[k]) {
        assert r[k] == tail[k - 1];
        assert s[1..][k - 1] == s[k];
      }
    }
  }

  /** An occurrence in the tail is an occurrence one position later in the whole. */
  lemma OccursAtTail(t: string, pat: string, i: nat)
    requires |t| > 0
    ensures OccursAt(t[1..], pat, i) <==> OccursAt(t, pat, i + 1)
  {
    if i + |pat| <= |t| - 1 {
      assert t[1..][i..i + |pat|] == t[i + 1..i + 1 + |pat|];
    }
  }

  /** A prefix in which no occurrence starts is copied unchanged. */
  lemma {:induction false} ReplaceSkip(p: string, s: string, pat: string, rep: string)
    requires |pat| > 0
    requires forall i :: 0 <= i < |p| ==> !OccursAt(p + s, pat, i)
    ensures Replace(p + s, pat, rep) == p + Replace(s, pat, rep)
    decreases |p|
  {
    var t := p + s;
    if |p| == 0 {
      assert t == s;
    } else if |t| < |pat| {
      assert Replace(s, pat, rep) == s;
    } else {
      assert t[..|pat|] != pat by {
        assert !OccursAt(t, pat, 0);
        assert t[..|pat|] == t[0..0 + |pat|];
      }
      assert t[1..] == p[1..] + s;
      forall i | 0 <= i < |p| - 1 ensures !OccursAt(p[1..] + s, pat, i) {
        OccursAtTail(t, pat, i);
      }
      ReplaceSkip(p[1..], s, pat, rep);
      assert [p[0]] + p[1..] == p;
    }
  }

  /** An occurrence at the start is replaced, and the rest is processed after it. */
  lemma ReplaceAtStart(pat: string, rest: string, rep: string)
    requires |pat| > 0
    ensures Replace(pat + rest, pat, rep) == rep + Replace(rest, pat, rep)
  {
    var t := pat + rest;
    assert t[..|pat|] == pat;
    assert t[|pat|..] == rest;
  }

  /** `s.endswith(suffix)`. */
  predicate EndsWith(s: string, suffix: string)
  {
    |suffix| <= |s| && s[|s| - |suffix|..] == suffix
  }

  function DigitChar(d: nat): char
    requires d < 10
  {
    "0123456789"[d]
  }

  /** `str(n)` for a count. */
  function NatToString(n: nat): (r: string)
    ensures |r| > 0
    ensures forall k :: 0 <= k < |r| ==> '0' <= r[k] <= '9'
    decreases n
  {
    if n < 10 then [DigitChar(n)] else NatToString(n / 10) + [DigitChar(n % 10)]
  }

  /** `int(s)` for a string of decimal digits. */
  function ParseNat(s: string): nat
    requires forall k :: 0 <= k < |s| ==> '0' <= s[k] <= '9'
    decreases |s|
  {
    if |s| == 0 then 0
    else 10 * ParseNat(s[..|s| - 1]) + ((s[|s| - 1] as int) - ('0' as int))
  }

  /** The rendered count reads back as the same number. */
  lemma {:induction false} ParseNatToString(n: nat)
    ensures ParseNat(NatToString(n)) == n
    decreases n
  {
    if n >= 10 {
      var r := NatToString(n);
      ParseNatToString(n / 10);
      assert r[..|r| - 1] == NatToString(n / 10);
    }
  }
}
